=== FILE: README.md ===
# morph: the hub and the client, modelled in Dafny

morph is a topic-based publish/subscribe system over WebSockets. The hub, `morpheus`,
keeps a registry of connected clients and the topic each one follows. It relays what a
client posts to the other subscribers of the posted topic, and gives an administrator a
console to list clients and topics and to send global, topic and private messages. The
client, `neo`, subscribes to one topic, reads lines the user types, and sends them to the
hub as topic messages or as replies to the administrator.

The model follows the source's structure:

| Dafny module | models |
|---|---|
| `Storage` (storage.dfy) | `InMemoryStorage`: the client table and the topic table |
| `ClientManager` (client_manager.dfy) | `ClientManager`: the registry plus one outbound queue per client, and the forwarding task |
| `Handler` (handler.dfy) | `ws::handler`: one inbound frame, and the session bracket of `client_connected` |
| `AdminCommands` (admin_commands.dfy) | the hub's `cli::commands::parse_command` |
| `Server` (server.dfy) | the hub's `run_cli` dispatch and its `handle_*_command` functions |
| `UserCommands` (user_commands.dfy) | the client's `cli::commands::parse_command` |
| `NeoClient` (neo_client.dfy) | the client's `core::client`: `run` and `handle_user_input` |
| `Msg` (msg.dfy) | the wire messages |
| `Uuids`, `RustStr`, `CommandLine`, `Seqs`, `Options` | `Uuid` display and parsing, the `str` operations the parsers use (`trim`, `splitn(3, ' ')`, `join`, lower-casing), `Vec::retain` |

A few modelling choices:

- **Immutable state.** The state is an immutable value, and each operation is a function
  from state to state. The concurrent maps become Dafny maps.
- **Queues as logs.** A client's unbounded channel is the queue of everything ever
  enqueued for it, in order.
- **Fresh ids as parameters.** Every fresh id (`Uuid::new_v4`) is a parameter.
- **Events as sequences.** Socket reads and console lines are given as sequences of
  outcomes.
- **Reactions instead of printing.** Printing is replaced by the `Reaction` the
  administrator sees.

Main results:

- `Storage.Valid` is kept by every mutating operation. It says that an id is listed under a
  topic exactly when its record names that topic, and that each list holds each id once.
- A topic broadcast reaches every current subscriber except the excluded one, exactly once.
  It reaches nobody else (`ClientManager.BroadcastToTopicDelivers`).
- A global broadcast gives the same queues whatever order the clients are visited in
  (`ClientManager.GlobalAnyOrder`).
- A whole WebSocket session leaves the registry as it found it (`Handler.Session`).
- The displayed form of an id parses back to that id (`Uuids.ParseText`). Both command
  parsers turn the lines their tests use back into the expected commands, for every id and
  every message that is non-empty and does not end in whitespace.

## Model

| member | source | states |
|---|---|---|
| Storage.AddClient | morpheus/src/core/storage.rs:51-53 | the record can be read back under its id; every other record and the topic table are unchanged |
| Storage.GetClient | morpheus/src/core/storage.rs:68-70 | a record is returned exactly for a registered id, and it carries that id and its stored topic |
| Storage.GetAllClients | morpheus/src/core/storage.rs:72-74 | the records returned are exactly those `get_client` returns for some id |
| Storage.GetClientsInTopic | morpheus/src/core/storage.rs:90-100 | a topic without an entry gives no records; every record given is the current record of an id listed under the topic |
| Storage.GetAllTopics | morpheus/src/core/storage.rs:102-108 | a topic is reported exactly when its list is non-empty |
| Storage.RemoveClient | morpheus/src/core/storage.rs:55-66 | returns the removed record (or none for an unknown id); the id is no longer registered; only the list of the topic its record named loses it; topic entries are never deleted |
| Storage.Subscribe | morpheus/src/core/storage.rs:76-88 | an unknown id changes nothing; a known id's record names the new topic; it leaves its old topic's list and is appended at the end of the new one, which is created if missing; other records unchanged |
| Storage.Resolve | morpheus/src/core/storage.rs:93-97 | every record returned is the current record of a listed id, and every listed registered id has its record returned; when all listed ids are registered, the records come one per id in list order |
| Storage.ResolveAppend | morpheus/src/core/storage.rs:94-97 | `filter_map` keeps list order and multiplicity: one more listed id appends its record if it is registered and nothing otherwise |
| Storage.EmptyValid | morpheus/src/core/storage.rs:35-40 | a new storage satisfies the registry invariant |
| Storage.AddClientValid | morpheus/src/core/storage.rs:51-53 | adding a record with a fresh id and no topic keeps the invariant |
| Storage.RemoveClientValid | morpheus/src/core/storage.rs:55-66 | removing a client keeps the invariant |
| Storage.SubscribeValid | morpheus/src/core/storage.rs:76-88 | subscribing keeps the invariant, including uniqueness of each topic's list |
| Storage.ClientsInTopic | morpheus/src/core/storage.rs:90-100 | the clients of a topic are exactly the registered clients whose record names it, each once, in subscription order |
| Storage.ClientsInUnknownTopic | morpheus/src/core/storage.rs:91-99 | a topic without an entry has no clients |
| Storage.ActiveTopics | morpheus/src/core/storage.rs:102-108 | a topic is reported exactly when some registered client follows it; emptied entries are not reported |
| Storage.AddThenGet | morpheus/src/core/storage.rs:68-74 | an added record is returned by `get_client` and is among all clients |
| Storage.RemoveTwice | morpheus/src/core/storage.rs:55-66 | a second removal of the same id returns nothing and changes nothing |
| Storage.Resubscribe | morpheus/src/core/storage.rs:79-86 | moving a client between topics takes it off the old list and leaves it on the new one exactly once, even when old and new are the same |
| Seqs.WithoutCount | morpheus/src/core/storage.rs:59 | `retain(|id| id != x)` removes every occurrence of `x` and keeps every other element with its multiplicity |
| Seqs.WithoutAppend | morpheus/src/core/storage.rs:59 | `retain` on two runs of ids is `retain` on each, concatenated |
| ClientManager.AddClient | morpheus/src/core/client_manager.rs:26-56 | registers the fresh id with no topic and an empty channel, returns it, and changes no other record or queue |
| ClientManager.RemoveClient | morpheus/src/core/client_manager.rs:59-62 | the id is deregistered; no queue changes |
| ClientManager.Subscribe | morpheus/src/core/client_manager.rs:65-67 | a registry change only: the record names the topic if the id is registered; queues unchanged |
| ClientManager.SendMessageToClient | morpheus/src/core/client_manager.rs:100-107 | a registered id's queue gains the message at its end; an unknown id is ignored; nothing else changes |
| ClientManager.SendAll | morpheus/src/core/client_manager.rs:77-82 | sending to each id of a list in turn leaves the registry unchanged and only appends to queues |
| ClientManager.SendAllQueues | morpheus/src/core/client_manager.rs:77-82 | sending to a list of ids gives each registered id one copy per listing and leaves every other queue untouched |
| ClientManager.Recipients | morpheus/src/core/client_manager.rs:76-81 | the ids sent to are those of the topic's records, in order, minus every occurrence of the excluded id |
| ClientManager.BroadcastToTopic | morpheus/src/core/client_manager.rs:70-83 | the registry is unchanged and no queue loses or reorders anything |
| ClientManager.BroadcastToTopicDelivers | morpheus/src/core/client_manager.rs:70-83 | every current subscriber of the topic other than the excluded id gets the message exactly once; the excluded id and all other clients get nothing |
| ClientManager.RecipientCount | morpheus/src/core/client_manager.rs:70-83 | with the registry invariant, the list `broadcast_to_topic` sends to holds each subscriber of the topic once, except the excluded id, and no other id |
| ClientManager.BroadcastGlobal | morpheus/src/core/client_manager.rs:86-92 | every registered client's queue gains the message; other queues and the registry are unchanged |
| ClientManager.GlobalAnyOrder | morpheus/src/core/client_manager.rs:86-92 | sending one by one in any order that lists each registered client once leaves the same queues as the global broadcast |
| ClientManager.SendPrivateMessage | morpheus/src/core/client_manager.rs:95-97 | only the target's queue changes, and only if it is registered |
| ClientManager.HandleMessageAcknowledgment | morpheus/src/core/client_manager.rs:127-135 | an acknowledgment changes neither the registry nor any queue |
| ClientManager.Forward | morpheus/src/core/client_manager.rs:31-45 | the forwarding task writes one frame per queued message, in order, until the first failed write; a message that fails to serialise is replaced by the fixed error frame |
| ClientManager.ForwardPrefix | morpheus/src/core/client_manager.rs:31-45 | delivery is FIFO: enqueuing more never changes the frames already written |
| ClientManager.InitialValid | morpheus/src/core/client_manager.rs:21-23 | a new manager satisfies the invariant |
| ClientManager.AddClientValid | morpheus/src/core/client_manager.rs:48-55 | registering a fresh id keeps the invariant, including that every registered client has a queue |
| ClientManager.RemoveClientValid | morpheus/src/core/client_manager.rs:59-62 | removing a client keeps the invariant |
| ClientManager.SubscribeValid | morpheus/src/core/client_manager.rs:65-67 | subscribing keeps the invariant |
| ClientManager.RemovedEverywhere | morpheus/src/core/client_manager.rs:59-62 | after removal the id appears neither among all clients nor among the clients of any topic |
| ClientManager.RemoveOnlyClient | morpheus/src/core/client_manager.rs:170-183 | one client subscribed to "general" is listed once overall and once in the topic; after its removal both listings are empty |
| Handler.HandleMessage | morpheus/src/ws/handler.rs:33-79 | a non-text frame or a reply changes nothing; an undecodable frame puts "Invalid message format" on the sender's own queue only; `Connect` only re-subscribes the sender; `Message` leaves the registry alone |
| Handler.MessageBroadcasts | morpheus/src/ws/handler.rs:41-53 | a `Message` frame sends one topic message, stamped with the fresh id and the sender's displayed id, to every subscriber of the named topic except the sender |
| Handler.HandleMessageValid | morpheus/src/ws/handler.rs:33-79 | every frame keeps the manager invariant |
| Handler.ReadLoop | morpheus/src/ws/handler.rs:18-27 | the loop stops at once on a read error or at the end of the stream; the set of registered clients is unchanged and queues only grow |
| Handler.ReadLoopCons | morpheus/src/ws/handler.rs:18-27 | frames are handled in order: the first frame is handled against the starting state, and the rest of the loop runs from the state it leaves |
| Handler.ClientConnected | morpheus/src/ws/handler.rs:10-31 | when the session ends its client is deregistered; no other client's queue loses anything |
| Handler.SessionStep | morpheus/src/ws/handler.rs:26 | handling one frame of the session's own client changes no other record and, with that client struck out, no topic list |
| Handler.ReadLoopSession | morpheus/src/ws/handler.rs:18-27 | the same for a whole read loop |
| Handler.Session | morpheus/src/ws/handler.rs:10-31 | a whole session, whatever its frames, leaves the invariant, every other client's record and every topic's list as they were before it connected |
| Handler.SessionStart | morpheus/src/ws/handler.rs:14 | registering a fresh id adds that one client and leaves every topic list as it was |
| Handler.SessionEnd | morpheus/src/ws/handler.rs:30 | deregistering the session's client restores the registered clients and every topic list the session started from |
| Handler.SessionDelivers | morpheus/src/ws/handler.rs:10-31 | in a session that sends one `Message` frame, the frame is handled as coming from the newly registered client: each subscriber of the topic gets the topic message naming that client as sender, other clients get nothing, and the new client's own fresh queue stays empty |
| Handler.SessionMalformed | morpheus/src/ws/handler.rs:10-31 | the connecting client is registered before its first frame is read: in a session whose only frame is malformed, the error reply goes to that client's fresh queue and is the only message on it |
| Handler.ReadLoopStops | morpheus/src/ws/handler.rs:18-27 | the read loop stops at the first read error: nothing after it is read |
| Handler.ReadLoopMalformed | morpheus/src/ws/handler.rs:18-28 | every frame up to the end of the stream is handled, in order: `n` malformed frames from a registered client put exactly `n` error replies on its queue |
| Handler.SessionMalformedFrames | morpheus/src/ws/handler.rs:10-31 | a session handles every frame it reads before deregistering: a fresh client sending `n` malformed frames, then a read error or the end of the stream, gets exactly `n` error replies, and nothing after the error is read |
| AdminCommands.ParseCommand | morpheus/src/cli/commands.rs:30-83 | a blank line, and only a blank line, gives the silent `Unknown("")`; a non-empty unknown message for a word that is no command word names that word |
| AdminCommands.Dispatch | morpheus/src/cli/commands.rs:34-82 | `Help`, `Exit` and `List` come exactly from their command words; `Unknown("")` exactly from the empty word |
| AdminCommands.LowerCaseWord | morpheus/src/cli/commands.rs:32-36 | the command words are their own lower-case forms, so any capitalisation of them is recognised |
| AdminCommands.ParseHelpExit | morpheus/src/cli/commands.rs:35-36 | `Help` and `Exit` come from `/help`, `/h`, `/exit`, `/e` in any letter case, and from nothing else |
| AdminCommands.ParseList | morpheus/src/cli/commands.rs:37-44 | `List` comes exactly from `/list` or `/l`; no scope or `all` lists every client, `topics` the topics, any other token that topic |
| AdminCommands.ParseGlobal | morpheus/src/cli/commands.rs:45-52 | the message is everything after the first space, verbatim; an empty one is refused |
| AdminCommands.ParseTopic | morpheus/src/cli/commands.rs:53-64 | the next word is the topic and the rest the content; either missing gives the usage message |
| AdminCommands.ParsePrivate | morpheus/src/cli/commands.rs:65-79 | a missing id or content gives the usage message, an id that does not parse is reported verbatim, and otherwise the id and the rest form the private message |
| AdminCommands.ParseUnknown | morpheus/src/cli/commands.rs:80-81 | any other non-blank line is an unknown command, reported lower-cased |
| AdminCommands.ParsePrivateOfId | morpheus/src/cli/commands.rs:65-79 | an id text that parses, followed by a message, gives a private message to the parsed id |
| AdminCommands.ParsePrivateOfText | morpheus/src/cli/commands.rs:161-179 | the displayed form of any client id, followed by any non-empty message that does not end in whitespace, gives a private message to that client with that message |
| AdminCommands.ParseTopicOfWords | morpheus/src/cli/commands.rs:139-153 | a topic word followed by any non-empty message that does not end in whitespace, inner spaces included, gives that topic and message |
| AdminCommands.ParseGlobalOfText | morpheus/src/cli/commands.rs:123-131 | any non-empty message that does not end in whitespace, after `/global` or `/g`, is sent as typed |
| AdminCommands.ParseHelpExitExamples | morpheus/src/cli/commands.rs:89-99 | each of `/help`, `/h`, `/exit` and `/e` alone gives `Help` or `Exit` |
| AdminCommands.ParseListAll | morpheus/src/cli/commands.rs:103-104 | `/list` and `/l` alone list every client |
| AdminCommands.ParseAnyCase | morpheus/src/cli/commands.rs:32-37 | a command word typed alone with any of its letters in upper case is that command: `/HELP` is `Help`, `/Exit` is `Exit`, `/L` lists every client |
| AdminCommands.ParseUnknownCase | morpheus/src/cli/commands.rs:80-81 | an unknown word typed with upper-case letters is reported in lower case |
| AdminCommands.ParseListScopes | morpheus/src/cli/commands.rs:105-119 | `all`, `topics` and any other topic word give the matching scope |
| AdminCommands.ParseGlobalEmpty | morpheus/src/cli/commands.rs:132-135 | `/global` alone is refused |
| AdminCommands.ParseTopicUsage | morpheus/src/cli/commands.rs:154-157 | `/topic` alone or with only a topic gets the usage message |
| AdminCommands.ParsePrivateUsage | morpheus/src/cli/commands.rs:181-184 | `/private` alone or with only an id gets the usage message |
| AdminCommands.ParsePrivateBadId | morpheus/src/cli/commands.rs:71-76 | an id word that does not parse is reported verbatim, whatever message follows |
| AdminCommands.ParseInvalidId | morpheus/src/cli/commands.rs:186-189 | `/private 12345 Hello` reports `Invalid client ID: 12345` |
| Server.RunCommand | morpheus/src/core/server.rs:32-125 | no command changes the registry; listing shows all clients, the active topics or one topic's clients; a global or private command enqueues the message, stamped with the fresh id, for all registered clients or for the target only; an empty unknown message only re-prompts and any other unknown input shows its error; exactly the help command shows help, exactly the exit command shuts down, and exactly the global, topic and private commands report a sent message |
| Server.TopicCommandDelivers | morpheus/src/core/server.rs:99-110 | an administrator's topic message, sent as "Morpheus", reaches every subscriber of the topic once and nobody else |
| Server.RunCommandValid | morpheus/src/core/server.rs:32-58 | every command keeps the manager invariant |
| UserCommands.ParseCommand | neo/src/cli/commands.rs:17-53 | a line that does not start with `/` once trimmed is a message of the trimmed line; a slash line gives a message only when it is non-empty |
| UserCommands.Dispatch | neo/src/cli/commands.rs:26-52 | `Help` comes exactly from `/help` or `/h`; a message only from `/msg` or `/m`; a reply only from `/reply` or `/r`; any other word is unknown and named as typed |
| UserCommands.ParseHelp | neo/src/cli/commands.rs:42 | on a slash line, `Help` comes from `/help` and `/h` and nothing else |
| UserCommands.ParseMsg | neo/src/cli/commands.rs:43-50 | the message is everything after the first space, verbatim; an empty one is refused |
| UserCommands.ParseReply | neo/src/cli/commands.rs:27-41 | a missing message is refused before the id is looked at; then a bad id is reported verbatim; otherwise the reply carries the id and the rest |
| UserCommands.ParseUnknown | neo/src/cli/commands.rs:51 | any other slash word is unknown, reported as typed |
| UserCommands.ParsePlainText | neo/src/cli/commands.rs:60-66 | a line without a leading slash is sent unchanged |
| UserCommands.ParseMsgOfText | neo/src/cli/commands.rs:69-80 | any non-empty message that does not end in whitespace, after `/msg` or `/m`, is sent as typed |
| UserCommands.ParseReplyOfText | neo/src/cli/commands.rs:83-106 | the displayed form of any message id, followed by any non-empty message that does not end in whitespace, gives a reply to that id with that message |
| UserCommands.ParseReplyBadId | neo/src/cli/commands.rs:124-130 | an id word that does not parse is reported verbatim |
| UserCommands.ParseReplyNoContent | neo/src/cli/commands.rs:133-142 | a reply without a message is refused, even with a valid id |
| UserCommands.ParseUnknownWord | neo/src/cli/commands.rs:51 | any other slash word, with a word after it, is reported as typed |
| UserCommands.ParseFoo | neo/src/cli/commands.rs:115-121 | `/foo bar` reports `Unknown command: /foo` |
| NeoClient.HandleUserInput | neo/src/core/client.rs:78-106 | a parsed message is sent to the client's own topic with its content, a parsed reply is sent as a reply to its id with its content, and help or an unknown command sends nothing |
| NeoClient.PlainTextSent | neo/src/core/client.rs:82-89 | a non-blank line that is not a command is sent, trimmed, to the client's topic |
| NeoClient.ReplySent | neo/src/core/client.rs:90-96 | a reply line naming a displayed message id sends a reply to that id with the rest of the line |
| NeoClient.InputLoop | neo/src/core/client.rs:54-70 | at most one message per line, each a topic message to the client's own topic or a reply |
| NeoClient.LineMessages | neo/src/core/client.rs:57-62 | a blank line sends nothing; any other line sends what `handle_user_input` makes of the trimmed line |
| NeoClient.PlainLineSent | neo/src/core/client.rs:57-62 | a non-blank line that is not a command is sent, trimmed, to the client's own topic |
| NeoClient.Run | neo/src/core/client.rs:26-75 | the first message sent is `Connect` with the client's topic, and no later message is a `Connect` |
| NeoClient.BlankLineSkipped | neo/src/core/client.rs:58-62 | a blank line sends nothing and the loop goes on |
| NeoClient.StopsAtEnd | neo/src/core/client.rs:56-68 | nothing after the end of the input or a read error is read |
| NeoClient.LineSent | neo/src/core/client.rs:57-62 | a line of the input, command or not, sends exactly what `handle_user_input` makes of it when trimmed, and nothing when blank |
| NeoClient.RunMsg | neo/src/core/client.rs:26-62 | typing `/msg` or `/m` and any non-empty message that does not end in whitespace sends `Connect` for the client's topic and then that message to the topic |
| NeoClient.RunReply | neo/src/core/client.rs:26-62 | typing `/reply` or `/r`, the displayed form of a message id and any non-empty message that does not end in whitespace sends `Connect` for the client's topic and then a reply to that id with that message |
| NeoClient.InputLoopAppend | neo/src/core/client.rs:44-72 | lines are handled in order: the messages for two runs of lines are those of the first followed by those of the second |
| RustStr.Trim | morpheus/src/cli/commands.rs:31 | `trim` yields the slice between the leading and trailing Unicode whitespace; it is empty exactly for a blank line |
| RustStr.TrimIdempotent | morpheus/src/core/server.rs:32 | trimming an already trimmed line changes nothing, so the console's own `trim` before parsing is harmless |
| RustStr.SplitN3 | morpheus/src/cli/commands.rs:31 | `splitn(3, ' ')` gives one to three pieces that join back to the line; only the last may hold a space, and only when it is the third |
| RustStr.SplitN3Join | morpheus/src/cli/commands.rs:46 | `join(" ")` is undone by `splitn(3, ' ')`: one to three pieces, of which only a third may hold a space, split back into themselves |
| RustStr.ToLower | morpheus/src/cli/commands.rs:32 | lower-casing maps each ASCII upper-case letter to its lower-case letter and keeps every other character, in place |
| RustStr.CaseVariantLower | morpheus/src/cli/commands.rs:32 | lower-casing undoes any capitalisation of a lower-case word |
| Uuids.Parse | morpheus/src/cli/commands.rs:71 | an accepted id text has one of the lengths the uuid parser accepts and holds no space |
| Uuids.ParseText | morpheus/src/ws/handler.rs:46 | the displayed form of an id parses back to that id |
| Uuids.Text | morpheus/src/ws/handler.rs:46 | the displayed form of an id is 36 characters long and holds only hyphens and lower-case hex digits, so no space: it is one word of a command line |

## Left out

- Transport: WebSocket framing, `warp`, the socket split, and the `tokio` tasks and their scheduling. Concurrent interleaving of operations on the `DashMap`s is also left out; each storage operation is one atomic step.
- JSON: serde encoding and decoding are left out. A frame is given as already decoded (`Handler.Inbound`). The serialiser is a parameter of `ClientManager.Forward`.
- Randomness: `Uuid::new_v4` is replaced by id parameters. The callers' lemmas ask for a fresh id where the source relies on randomness for one.
- Output: logging, the `log::middleware` calls and console printing are left out. Console output is the `Server.Reaction` value.
- Server.RunCommand: models one iteration of `run_cli`. The stdin loop is left out, and so is the loop's exit on a read error. `Exit` is the `ShutDown` reaction, not a process exit.
- NeoClient.InputLoop: models only the user-input arm of `run`'s `select!`. Server messages arriving in between, the acknowledgements the client sends back for them, and a failed send ending the loop are left out: every send succeeds.
- Handler.ClientConnected: its own contract says nothing about the queue of the connecting id; `Handler.SessionDelivers` states it for a session of one message, `Handler.SessionMalformed` for a session of one malformed frame, and `Handler.SessionMalformedFrames` for any number of malformed frames followed by a read error or the end of the stream. `add_client` starts that client's channel afresh, so an earlier queue under the same id would be replaced. `Handler.Session` requires the id to be fresh.
- AdminCommands.ParseCommand: `to_lowercase` is modelled on ASCII letters only. A command word is recognised exactly as in the source, because the command words are ASCII. The Kelvin sign lower-cases to `k`, and no command word contains a `k`. Capital I with dot above lower-cases to `i` followed by a combining dot, and that extra character keeps the word from matching any command word. No other non-ASCII character lower-cases to anything that contains an ASCII letter. Only the text of an `Unknown command` message can differ, for non-ASCII upper-case letters.
- Uuids.Parse: models the simple, hyphenated, braced and `urn:uuid:` forms of the uuid 1.x parser. It does not model the crate's error kinds, which the source discards.
- Client acknowledgements at the hub: `ws/handler.rs` matches only `Connect`, `Message` and `ReplyToMorpheus` (handler.rs:36-64). Acknowledgements are therefore not routed to `handle_message_acknowledgment`. That function is modelled (`ClientManager.HandleMessageAcknowledgment`), but no caller reaches it. The hub's `core/msg.rs` is not part of this model. The message types come from the client's `neo/src/core/msg.rs`, which the hub's handler matches by the same names.
- The element type of the storage's `Client.sender`: it is declared as a bounded `mpsc::Sender` while `add_client` creates an unbounded channel. The model gives each client one unbounded queue.
- `get_all_clients` and `get_all_topics` return sets, because the concurrent map's iteration order is unspecified. `GetClientsInTopic` keeps list order.
- The client's `Connection` and the terminal UI (`cli/ui.rs`) are left out.

=== FILE: admin_commands.dfy ===
/** `cli::commands` of the hub: the administrator's command line, read into a `Command`. */
module AdminCommands {
  import opened Options
  import opened Uuids
  import opened RustStr
  import opened CommandLine

  /** What `/list` shows. */
  datatype ListScope = All | Topic(name: string) | Topics

  datatype Command =
    | List(scope: ListScope)
    | Global(content: string)
    | Topic(topic: string, content: string)
    | Private(clientId: Uuid, content: string)
    | Help
    | Exit
    | Unknown(message: string)

  const GLOBAL_EMPTY: string := "Global message content cannot be empty."
  const TOPIC_USAGE: string := "Usage: /topic <topic_name> <content>"
  const PRIVATE_USAGE: string := "Usage: /private <client_id> <content>"
  const INVALID_CLIENT_ID: string := "Invalid client ID: "
  const UNKNOWN_COMMAND: string := "Unknown command: "

  predicate IsHelp(word: string) { word == "/help" || word == "/h" }
  predicate IsExit(word: string) { word == "/exit" || word == "/e" }
  predicate IsList(word: string) { word == "/list" || word == "/l" }
  predicate IsGlobal(word: string) { word == "/global" || word == "/g" }
  predicate IsTopic(word: string) { word == "/topic" || word == "/t" }
  predicate IsPrivate(word: string) { word == "/private" || word == "/p" }

  predicate IsCommandWord(word: string) {
    IsHelp(word) || IsExit(word) || IsList(word) || IsGlobal(word) || IsTopic(word) || IsPrivate(word)
  }

  /** `parse_command`: trims the line, cuts it with `splitn(3, ' ')` and dispatches on the
      lower-cased first piece. What each command word yields is stated by the lemmas below
      in terms of words of the trimmed line: `Word` before the first space, lower-cased;
      `Rest` everything after it, verbatim; `Second` and `Third` the text before and after
      the first space of `Rest`. */
  function ParseCommand(input: string): (r: Command)
    ensures r == Unknown("") <==> AllWhitespace(input)
    ensures r.Unknown? && r.message != "" && !IsCommandWord(Word(input)) ==> r.message == UNKNOWN_COMMAND + Word(input)
  {
    var t := Trim(input);
    var parts := SplitN3(t);
    assert parts[0] == [] <==> t == [];
    Dispatch(ToLower(parts[0]), parts)
  }

  /** The `match` of `parse_command` on the lower-cased command word, given the pieces of
      the trimmed line. */
  function Dispatch(command: string, parts: seq<string>): (r: Command)
    requires 1 <= |parts| <= 3
    ensures r == Help <==> IsHelp(command)
    ensures r == Exit <==> IsExit(command)
    ensures r.List? <==> IsList(command)
    ensures r == Unknown("") <==> command == ""
    ensures r.Unknown? && r.message != "" && !IsCommandWord(command) ==> r.message == UNKNOWN_COMMAND + command
  {
    if command == "/help" || command == "/h" then Help
    else if command == "/exit" || command == "/e" then Exit
    else if command == "/list" || command == "/l" then
      var scope := if |parts| >= 2 then parts[1] else "all";
      List(if scope == "all" then All else if scope == "topics" then Topics else ListScope.Topic(scope))
    else if command == "/global" || command == "/g" then
      var content := Join(parts[1..], " ");
      if content == "" then Unknown(GLOBAL_EMPTY) else Global(content)
    else if command == "/topic" || command == "/t" then
      var topic := if |parts| >= 2 then parts[1] else "";
      var content := if |parts| == 3 then parts[2] else "";
      if topic == "" || content == "" then Unknown(TOPIC_USAGE) else Command.Topic(topic, content)
    else if command == "/private" || command == "/p" then
      var idText := if |parts| >= 2 then parts[1] else "";
      var content := if |parts| == 3 then parts[2] else "";
      if idText == "" || content == "" then Unknown(PRIVATE_USAGE)
      else match Parse(idText)
        case Some(id) => Private(id, content)
        case None => Unknown(INVALID_CLIENT_ID + idText)
    else if command == "" then Unknown("")
    else Unknown(UNKNOWN_COMMAND + command)
  }

  /** The `/topic` arm of the dispatch, given the words it reads. */
  lemma DispatchTopic(command: string, parts: seq<string>, topic: string, content: string)
    requires 1 <= |parts| <= 3 && IsTopic(command)
    requires topic == (if |parts| >= 2 then parts[1] else "")
    requires content == (if |parts| == 3 then parts[2] else "")
    ensures Dispatch(command, parts) ==
      if topic == "" || content == "" then Unknown(TOPIC_USAGE) else Command.Topic(topic, content)
  {
  }

  /** The `/private` arm of the dispatch, given the words it reads. */
  lemma DispatchPrivate(command: string, parts: seq<string>, idText: string, content: string)
    requires 1 <= |parts| <= 3 && IsPrivate(command)
    requires idText == (if |parts| >= 2 then parts[1] else "")
    requires content == (if |parts| == 3 then parts[2] else "")
    ensures Dispatch(command, parts) ==
      if idText == "" || content == "" then Unknown(PRIVATE_USAGE)
      else if Parse(idText).Some? then Private(Parse(idText).value, content)
      else Unknown(INVALID_CLIENT_ID + idText)
  {
  }

  /** The command words are already lower-case. */
  lemma LowerCaseWord(word: string)
    requires IsCommandWord(word)
    ensures ToLower(word) == word
  {
    ToLowerUnchanged(word);
  }

  /** The command word: the trimmed line up to its first space, lower-cased. */
  function Word(input: string): string {
    ToLower(Head(input))
  }

  /** `/help`, `/h`, `/exit` and `/e`, in any case, and nothing else, give `Help` and `Exit`. */
  lemma ParseHelpExit(input: string)
    ensures ParseCommand(input) == Help <==> IsHelp(Word(input))
    ensures ParseCommand(input) == Exit <==> IsExit(Word(input))
  {
    Pieces(input);
    var parts := SplitN3(Trim(input));
    assert ParseCommand(input) == Dispatch(Word(input), parts);
  }

  /** `/list` and `/l`: no scope or `all` lists every client, `topics` the active topics,
      and any other token the clients of that topic. */
  lemma ParseList(input: string)
    ensures ParseCommand(input).List? <==> IsList(Word(input))
    ensures IsList(Word(input)) ==>
      ParseCommand(input).scope ==
        if ' ' !in Trim(input) || Second(input) == "all" then All
        else if Second(input) == "topics" then Topics
        else ListScope.Topic(Second(input))
  {
    Pieces(input);
    var parts := SplitN3(Trim(input));
    assert ParseCommand(input) == Dispatch(Word(input), parts);
  }

  /** `/global` and `/g` send everything after the first space, verbatim, and refuse an
      empty message. */
  lemma ParseGlobal(input: string)
    ensures IsGlobal(Word(input)) ==>
      ParseCommand(input) == if Rest(input) == "" then Unknown(GLOBAL_EMPTY) else Global(Rest(input))
  {
    Pieces(input);
    var parts := SplitN3(Trim(input));
    assert ParseCommand(input) == Dispatch(Word(input), parts);
    assert IsGlobal(Word(input)) ==>
      Dispatch(Word(input), parts) == if Rest(input) == "" then Unknown(GLOBAL_EMPTY) else Global(Rest(input));
  }

  /** `/topic` and `/t` take the next token as the topic and everything after it, spaces
      included, as the content; either missing gives the usage message. */
  lemma ParseTopic(input: string)
    ensures IsTopic(Word(input)) ==>
      ParseCommand(input) ==
      if Second(input) == "" || Third(input) == "" then Unknown(TOPIC_USAGE)
      else Command.Topic(Second(input), Third(input))
  {
    if IsTopic(Word(input)) {
      Pieces(input);
      var parts := SplitN3(Trim(input));
      assert ParseCommand(input) == Dispatch(Word(input), parts);
      DispatchTopic(Word(input), parts, Second(input), Third(input));
    }
  }

  /** `/private` and `/p`: a missing id or content gives the usage message, an id that does
      not parse is reported verbatim, and otherwise the rest is the content. */
  lemma ParsePrivate(input: string)
    ensures IsPrivate(Word(input)) ==>
      ParseCommand(input) ==
      if Second(input) == "" || Third(input) == "" then Unknown(PRIVATE_USAGE)
      else if Parse(Second(input)).Some? then Private(Parse(Second(input)).value, Third(input))
      else Unknown(INVALID_CLIENT_ID + Second(input))
  {
    if IsPrivate(Word(input)) {
      Pieces(input);
      var parts := SplitN3(Trim(input));
      assert ParseCommand(input) == Dispatch(Word(input), parts);
      DispatchPrivate(Word(input), parts, Second(input), Third(input));
    }
  }

  /** Any other non-blank line names an unknown command, reported lower-cased. */
  lemma ParseUnknown(input: string)
    requires !IsCommandWord(Word(input)) && !AllWhitespace(input)
    ensures ParseCommand(input) == Unknown(UNKNOWN_COMMAND + Word(input))
  {
    Pieces(input);
    var parts := SplitN3(Trim(input));
    assert ParseCommand(input) == Dispatch(Word(input), parts);
  }

  // ---------------------------------------------------------------------------
  // Lines the administrator types.

  /** An id that parses, followed by a message, reads back as a private message to it. */
  lemma ParsePrivateOfId(word: string, idText: string, content: string)
    requires word == "/private" || word == "/p"
    requires idText != "" && Parse(idText).Some?
    requires content != "" && !IsWhitespace(content[|content| - 1])
    ensures ParseCommand(word + " " + idText + " " + content) == Private(Parse(idText).value, content)
  {
    ThreeWords(word, idText, content);
    LowerCaseWord(word);
    ParsePrivate(word + " " + idText + " " + content);
  }

  /** The displayed form of a client id, followed by a message, reads back as a private
      message to that client: `test_parse_private` for every id and every message. */
  lemma ParsePrivateOfText(word: string, u: Uuid, content: string)
    requires word == "/private" || word == "/p"
    requires content != "" && !IsWhitespace(content[|content| - 1])
    ensures ParseCommand(word + " " + Text(u) + " " + content) == Private(u, content)
  {
    ParseText(u);
    ParsePrivateOfId(word, Text(u), content);
  }

  /** A topic name without spaces, followed by a message, reads back as that topic and
      message; the message may hold spaces. */
  lemma ParseTopicOfWords(word: string, topic: string, content: string)
    requires word == "/topic" || word == "/t"
    requires topic != "" && ' ' !in topic
    requires content != "" && !IsWhitespace(content[|content| - 1])
    ensures ParseCommand(word + " " + topic + " " + content) == Command.Topic(topic, content)
  {
    ThreeWords(word, topic, content);
    LowerCaseWord(word);
    ParseTopic(word + " " + topic + " " + content);
  }

  /** Any message after `/global` or `/g` is sent as it is. */
  lemma ParseGlobalOfText(word: string, content: string)
    requires word == "/global" || word == "/g"
    requires content != "" && !IsWhitespace(content[|content| - 1])
    ensures ParseCommand(word + " " + content) == Global(content)
  {
    var input := word + " " + content;
    WordAndText(word, content);
    LowerCaseWord(word);
    assert Word(input) == word;
    ParseGlobal(input);
  }

  /** `test_parse_help` and `test_parse_exit`. */
  lemma ParseHelpExitExamples(word: string)
    requires IsHelp(word) || IsExit(word)
    ensures ParseCommand(word) == if IsHelp(word) then Help else Exit
  {
    OneWord(word);
    LowerCaseWord(word);
    ParseHelpExit(word);
  }

  /** `test_parse_list`, one word. */
  lemma ParseListAll(word: string)
    requires IsList(word)
    ensures ParseCommand(word) == List(All)
  {
    OneWord(word);
    LowerCaseWord(word);
    ParseList(word);
  }

  /** A command word typed as a line of its own, in any letter case, is that command:
      `/HELP`, `/Exit` and `/L` are `/help`, `/exit` and `/l`. */
  lemma ParseAnyCase(w: string, c: string)
    requires CaseVariant(w, c) && IsCommandWord(c)
    requires w != [] && ' ' !in w && !IsWhitespace(w[0]) && !IsWhitespace(w[|w| - 1])
    ensures Word(w) == c
    ensures IsHelp(c) ==> ParseCommand(w) == Help
    ensures IsExit(c) ==> ParseCommand(w) == Exit
    ensures IsList(c) ==> ParseCommand(w) == List(All)
  {
    OneWord(w);
    LowerCaseWord(c);
    CaseVariantLower(w, c);
    ParseHelpExit(w);
    ParseList(w);
  }

  /** An unknown word typed as a line of its own, with upper-case letters, is reported in
      lower case. */
  lemma ParseUnknownCase(w: string, c: string)
    requires CaseVariant(w, c) && ToLower(c) == c && !IsCommandWord(c)
    requires w != [] && ' ' !in w && !IsWhitespace(w[0]) && !IsWhitespace(w[|w| - 1])
    ensures ParseCommand(w) == Unknown(UNKNOWN_COMMAND + c)
  {
    OneWord(w);
    CaseVariantLower(w, c);
    ParseUnknown(w);
  }

  /** `test_parse_list`, with a scope. */
  lemma ParseListScopes(word: string, scope: string)
    requires word == "/list" || word == "/l"
    requires scope != [] && ' ' !in scope && !IsWhitespace(scope[|scope| - 1])
    ensures ParseCommand(word + " " + scope) ==
      List(if scope == "all" then All else if scope == "topics" then Topics else ListScope.Topic(scope))
  {
    TwoWords(word, scope);
    LowerCaseWord(word);
    ParseList(word + " " + scope);
  }

  /** `test_parse_global`: `/global` or `/g` alone is refused. */
  lemma ParseGlobalEmpty(word: string)
    requires word == "/global" || word == "/g"
    ensures ParseCommand(word) == Unknown(GLOBAL_EMPTY)
  {
    OneWord(word);
    LowerCaseWord(word);
    ParseGlobal(word);
  }

  /** `test_parse_topic`: `/topic` alone, or with a topic and no message, gets the usage. */
  lemma ParseTopicUsage(word: string, topic: string)
    requires word == "/topic" || word == "/t"
    requires topic != [] && ' ' !in topic && !IsWhitespace(topic[|topic| - 1])
    ensures ParseCommand(word) == Unknown(TOPIC_USAGE)
    ensures ParseCommand(word + " " + topic) == Unknown(TOPIC_USAGE)
  {
    OneWord(word);
    LowerCaseWord(word);
    ParseTopic(word);
    TwoWords(word, topic);
    LowerCaseWord(word);
    ParseTopic(word + " " + topic);
  }

  /** `test_parse_private`: `/private` alone, or with an id and no message, gets the usage. */
  lemma ParsePrivateUsage(word: string, idText: string)
    requires word == "/private" || word == "/p"
    requires idText != [] && ' ' !in idText && !IsWhitespace(idText[|idText| - 1])
    ensures ParseCommand(word) == Unknown(PRIVATE_USAGE)
    ensures ParseCommand(word + " " + idText) == Unknown(PRIVATE_USAGE)
  {
    OneWord(word);
    LowerCaseWord(word);
    ParsePrivate(word);
    TwoWords(word, idText);
    LowerCaseWord(word);
    ParsePrivate(word + " " + idText);
  }

  /** An id that does not parse is reported verbatim, whatever message follows it. */
  lemma ParsePrivateBadId(word: string, idText: string, content: string)
    requires word == "/private" || word == "/p"
    requires idText != "" && ' ' !in idText && Parse(idText).None?
    requires content != "" && !IsWhitespace(content[|content| - 1])
    ensures ParseCommand(word + " " + idText + " " + content) == Unknown(INVALID_CLIENT_ID + idText)
  {
    ThreeWords(word, idText, content);
    LowerCaseWord(word);
    ParsePrivate(word + " " + idText + " " + content);
  }

  /** `test_parse_private`: `/private 12345 Hello` reports the id, which has the wrong length. */
  lemma ParseInvalidId()
    ensures ParseCommand("/private 12345 Hello") == Unknown(INVALID_CLIENT_ID + "12345")
  {
    assert Parse("12345") == None;
    assert "/private 12345 Hello" == "/private" + " " + "12345" + " " + "Hello";
    ParsePrivateBadId("/private", "12345", "Hello");
  }
}

=== FILE: client_manager.dfy ===
/** `ClientManager`: the registry plus one outbound queue per client. A client's queue
    stands for its unbounded channel: everything ever enqueued for it, in enqueue order.
    The forwarding task that drains a queue into the socket is `Forward`. */
module ClientManager {
  import opened Options
  import opened Seqs
  import opened Uuids
  import opened Msg
  import opened Storage

  datatype Manager = Manager(storage: InMemoryStorage, queues: map<Uuid, seq<ServerMessage>>)

  /** A manager over an empty registry, with no queues. */
  const Initial: Manager := Manager(Storage.Empty, map[])

  /** Everything enqueued so far for `id`. */
  function Queue(m: Manager, id: Uuid): seq<ServerMessage> {
    if id in m.queues then m.queues[id] else []
  }

  /** The registry invariant, and every registered client has a queue. */
  ghost predicate Valid(m: Manager) {
    Storage.Valid(m.storage) && m.storage.clients.Keys <= m.queues.Keys
  }

  /** No queue lost or reordered anything: each queue of `m` is a prefix of the same queue in `r`. */
  ghost predicate QueuesGrow(m: Manager, r: Manager) {
    forall id :: Queue(m, id) <= Queue(r, id)
  }

  /** `add_client` (and the test-only `add_test_client`): registers `newId`, the id the
      source draws with `Uuid::new_v4`, with no topic and a new empty channel, and returns it. */
  function AddClient(m: Manager, newId: Uuid): (r: (Manager, Uuid))
    ensures r.1 == newId
    ensures GetClient(r.0.storage, newId) == Some(Client(newId, None))
    ensures Queue(r.0, newId) == []
    ensures forall id | id != newId ::
      GetClient(r.0.storage, id) == GetClient(m.storage, id) && Queue(r.0, id) == Queue(m, id)
    ensures GetAllTopics(r.0.storage) == GetAllTopics(m.storage)
  {
    (Manager(Storage.AddClient(m.storage, Client(newId, None)), m.queues[newId := []]), newId)
  }

  /** `remove_client`: deregisters `id`. Its queue is left as it is: the forwarding task
      still drains what was enqueued before the channel's sender was dropped. */
  function RemoveClient(m: Manager, id: Uuid): (r: Manager)
    ensures GetClient(r.storage, id) == None
    ensures forall other | other != id :: GetClient(r.storage, other) == GetClient(m.storage, other)
    ensures r.queues == m.queues
  {
    Manager(Storage.RemoveClient(m.storage, id).0, m.queues)
  }

  /** `subscribe_client_to_topic`: a registry change only. */
  function Subscribe(m: Manager, id: Uuid, topic: string): (r: Manager)
    ensures GetClient(r.storage, id) == if id in m.storage.clients then Some(Client(id, Some(topic))) else None
    ensures forall other | other != id :: GetClient(r.storage, other) == GetClient(m.storage, other)
    ensures r.queues == m.queues
  {
    Manager(Storage.Subscribe(m.storage, id, topic), m.queues)
  }

  /** `send_message_to_client`: appends `msg` to the queue of `id` if `id` is registered,
      and otherwise does nothing. */
  function SendMessageToClient(m: Manager, id: Uuid, msg: ServerMessage): (r: Manager)
    ensures r.storage == m.storage
    ensures m.queues.Keys <= r.queues.Keys
    ensures forall other ::
      Queue(r, other) == if other == id && id in m.storage.clients then Queue(m, other) + [msg] else Queue(m, other)
  {
    if id in m.storage.clients then Manager(m.storage, m.queues[id := Queue(m, id) + [msg]]) else m
  }

  /** Sends `msg` to each id of `ids` in turn; `SendAllQueues` says what each queue receives. */
  function SendAll(m: Manager, ids: seq<Uuid>, msg: ServerMessage): (r: Manager)
    ensures r.storage == m.storage
    ensures m.queues.Keys <= r.queues.Keys
    ensures QueuesGrow(m, r)
    decreases |ids|
  {
    if ids == [] then m else SendAll(SendMessageToClient(m, ids[0], msg), ids[1..], msg)
  }

  /** Every registered id gets one copy of `msg` per time it is listed; every other
      queue is untouched. */
  lemma {:induction false} SendAllQueues(m: Manager, ids: seq<Uuid>, msg: ServerMessage, id: Uuid)
    ensures Queue(SendAll(m, ids, msg), id) ==
      Queue(m, id) + (if id in m.storage.clients then Copies(msg, multiset(ids)[id]) else [])
    decreases |ids|
  {
    if ids == [] {
      assert Queue(m, id) + [] == Queue(m, id);
    } else {
      var first := SendMessageToClient(m, ids[0], msg);
      assert SendAll(m, ids, msg) == SendAll(first, ids[1..], msg);
      SendAllQueues(first, ids[1..], msg, id);
      var n := multiset(ids[1..])[id];
      MultisetHead(ids, id);
      if id == ids[0] && id in m.storage.clients {
        assert Queue(first, id) == Queue(m, id) + [msg];
        assert Copies(msg, n + 1) == [msg] + Copies(msg, n);
        ConcatAssoc(Queue(m, id), [msg], Copies(msg, n));
      } else {
        assert Queue(first, id) == Queue(m, id);
      }
    }
  }

  /** The ids of some records, in order. */
  function Ids(cs: seq<Client>): (ids: seq<Uuid>)
    ensures |ids| == |cs| && forall i | 0 <= i < |cs| :: ids[i] == cs[i].id
  {
    seq(|cs|, i requires 0 <= i < |cs| => cs[i].id)
  }

  /** The ids `broadcast_to_topic` sends to, in order: those of the records, minus the
      excluded one. */
  function Recipients(cs: seq<Client>, exclude: Option<Uuid>): (ids: seq<Uuid>)
    ensures ids == if exclude.Some? then Without(Ids(cs), exclude.value) else Ids(cs)
  {
    if cs == [] then []
    else
      assert Ids(cs) == [cs[0].id] + Ids(cs[1..]);
      (if exclude == Some(cs[0].id) then [] else [cs[0].id]) + Recipients(cs[1..], exclude)
  }

  /** `broadcast_to_topic`: sends `msg` to each record `get_clients_in_topic` returns,
      skipping the excluded id. */
  function BroadcastToTopic(m: Manager, topic: string, msg: ServerMessage, exclude: Option<Uuid>): (r: Manager)
    ensures r.storage == m.storage
    ensures m.queues.Keys <= r.queues.Keys
    ensures QueuesGrow(m, r)
  {
    SendAll(m, Recipients(GetClientsInTopic(m.storage, topic), exclude), msg)
  }

  /** `broadcast_global`: sends `msg` to every registered client. The source walks
      `get_all_clients` in the concurrent map's order; since each client is listed once,
      every order leaves the same queues (`GlobalAnyOrder`), so the model appends to all
      of them at once. */
  function BroadcastGlobal(m: Manager, msg: ServerMessage): (r: Manager)
    ensures r.storage == m.storage
    ensures m.queues.Keys <= r.queues.Keys
    ensures forall id :: Queue(r, id) == if id in m.storage.clients then Queue(m, id) + [msg] else Queue(m, id)
  {
    var keys := m.queues.Keys + m.storage.clients.Keys;
    Manager(m.storage, map id | id in keys :: if id in m.storage.clients then Queue(m, id) + [msg] else Queue(m, id))
  }

  /** `send_private_message`. */
  function SendPrivateMessage(m: Manager, id: Uuid, msg: ServerMessage): (r: Manager)
    ensures r.storage == m.storage
    ensures m.queues.Keys <= r.queues.Keys
    ensures Queue(r, id) == if id in m.storage.clients then Queue(m, id) + [msg] else Queue(m, id)
    ensures forall other | other != id :: Queue(r, other) == Queue(m, other)
  {
    SendMessageToClient(m, id, msg)
  }

  /** `handle_message_acknowledgment`: logs the acknowledgment and changes nothing. */
  function HandleMessageAcknowledgment(m: Manager, clientId: Uuid, msgId: Uuid): (r: Manager)
    ensures r.storage == m.storage && forall id :: Queue(r, id) == Queue(m, id)
  {
    m
  }

  /** `get_clients_by_topic`. */
  function GetClientsByTopic(m: Manager, topic: string): seq<Client> {
    GetClientsInTopic(m.storage, topic)
  }

  // ---------------------------------------------------------------------------
  // The forwarding task.

  /** The frame sent in place of a message that fails to serialise. */
  const SERIALIZE_FALLBACK: string :=
    "{\"type\":\"Error\",\"message\":\"Internal server error: could not serialize message.\"}"

  /** The frames the forwarding task of `add_client` writes to the socket, given the queue
      it drains, the serialiser (`None` for a failure) and how many writes the socket
      accepts before its first failed write, which ends the forwarding loop. One frame per message,
      in queue order, with the fixed fallback for a message that does not serialise. */
  function Forward(queue: seq<ServerMessage>, encode: ServerMessage -> Option<string>, writable: nat): (frames: seq<string>)
    ensures |frames| == if |queue| < writable then |queue| else writable
    ensures forall i | 0 <= i < |frames| ::
      frames[i] == if encode(queue[i]).Some? then encode(queue[i]).value else SERIALIZE_FALLBACK
  {
    if queue == [] || writable == 0 then []
    else [encode(queue[0]).UnwrapOr(SERIALIZE_FALLBACK)] + Forward(queue[1..], encode, writable - 1)
  }

  /** Delivery is FIFO: enqueuing more never changes or reorders the frames already written. */
  lemma {:induction false} ForwardPrefix(queue: seq<ServerMessage>, more: seq<ServerMessage>, encode: ServerMessage -> Option<string>, writable: nat)
    ensures Forward(queue, encode, writable) <= Forward(queue + more, encode, writable)
  {
    if queue != [] && writable != 0 {
      assert (queue + more)[0] == queue[0];
      assert (queue + more)[1..] == queue[1..] + more;
      ForwardPrefix(queue[1..], more, encode, writable - 1);
    }
  }

  // ---------------------------------------------------------------------------
  // The invariant is kept.

  lemma InitialValid()
    ensures Valid(Initial)
  {
  }

  lemma AddClientValid(m: Manager, newId: Uuid)
    requires Valid(m) && newId !in m.storage.clients
    ensures Valid(AddClient(m, newId).0)
  {
    Storage.AddClientValid(m.storage, Client(newId, None));
  }

  lemma RemoveClientValid(m: Manager, id: Uuid)
    requires Valid(m)
    ensures Valid(RemoveClient(m, id))
  {
    Storage.RemoveClientValid(m.storage, id);
  }

  lemma SubscribeValid(m: Manager, id: Uuid, topic: string)
    requires Valid(m)
    ensures Valid(Subscribe(m, id, topic))
  {
    Storage.SubscribeValid(m.storage, id, topic);
  }

  // ---------------------------------------------------------------------------
  // Who receives what.

  /** `broadcast_to_topic`: every current subscriber of `topic` other than the excluded id
      gets exactly one more message, `msg`; every other queue, including the excluded
      id's and those of clients in other topics, is unchanged. */
  lemma BroadcastToTopicDelivers(m: Manager, topic: string, msg: ServerMessage, exclude: Option<Uuid>, id: Uuid)
    requires Valid(m)
    ensures Queue(BroadcastToTopic(m, topic, msg, exclude), id) ==
      if SubscribedTo(m.storage, id, topic) && exclude != Some(id) then Queue(m, id) + [msg] else Queue(m, id)
  {
    var ids := Recipients(GetClientsInTopic(m.storage, topic), exclude);
    SendAllQueues(m, ids, msg, id);
    RecipientCount(m.storage, topic, exclude, id);
    assert Copies(msg, 1) == [msg];
  }

  /** With the registry invariant, `broadcast_to_topic` lists each subscriber of the topic
      once, except the excluded one, and nobody else. */
  lemma RecipientCount(s: InMemoryStorage, topic: string, exclude: Option<Uuid>, id: Uuid)
    requires Storage.Valid(s)
    ensures multiset(Recipients(GetClientsInTopic(s, topic), exclude))[id] ==
      if SubscribedTo(s, id, topic) && exclude != Some(id) then 1 else 0
  {
    var members := Members(s, topic);
    var cs := GetClientsInTopic(s, topic);
    ClientsInTopic(s, topic);
    assert Ids(cs) == members;
    var ids: seq<Uuid> := Recipients(cs, exclude);
    if exclude.Some? {
      WithoutCount(members, exclude.value);
    }
    UniqueCount(members);
    if SubscribedTo(s, id, topic) && exclude != Some(id) {
      assert id in members;
    } else if exclude != Some(id) {
      assert id !in members;
    }
  }

  /** `broadcast_global` delivers the same thing as sending to the registered clients one
      by one in any order that lists each of them once. */
  lemma GlobalAnyOrder(m: Manager, order: seq<Uuid>, msg: ServerMessage, id: Uuid)
    requires Unique(order) && forall x :: x in order <==> x in m.storage.clients
    ensures Queue(SendAll(m, order, msg), id) == Queue(BroadcastGlobal(m, msg), id)
  {
    SendAllQueues(m, order, msg, id);
    UniqueCount(order);
    if id in m.storage.clients {
      assert Copies(msg, 1) == [msg];
    }
  }

  /** After `remove_client` the id is in no listing: not among all clients and not among
      the clients of any topic. */
  lemma RemovedEverywhere(m: Manager, id: Uuid, topic: string)
    requires Valid(m)
    ensures var r := RemoveClient(m, id);
      && (forall c | c in GetAllClients(r.storage) :: c.id != id)
      && (forall c | c in GetClientsByTopic(r, topic) :: c.id != id)
  {
    RemoveClientValid(m, id);
  }

  /** `test_remove_client`: one client subscribed to "general" is listed once overall and
      once in the topic, and after its removal both listings are empty. */
  lemma RemoveOnlyClient(newId: Uuid)
    ensures var m := Subscribe(AddClient(Initial, newId).0, newId, "general");
      && |GetAllClients(m.storage)| == 1 && |GetClientsByTopic(m, "general")| == 1
      && GetAllClients(RemoveClient(m, newId).storage) == {}
      && GetClientsByTopic(RemoveClient(m, newId), "general") == []
  {
    var m := Subscribe(AddClient(Initial, newId).0, newId, "general");
    assert m.storage.clients.Keys == {newId};
    assert GetAllClients(m.storage) == {Client(newId, Some("general"))};
    assert Members(m.storage, "general") == [newId];
    var r := RemoveClient(m, newId);
    assert Members(r.storage, "general") == [];
    assert r.storage.clients.Keys == {};
  }
}

=== FILE: cmdline.dfy ===
/** The words of a command line as both command parsers cut it: the line is trimmed and
    split with `splitn(3, ' ')`. Naming the pieces as words lets each parser's behaviour
    be stated without the split. */
module CommandLine {
  import opened RustStr

  /** The trimmed line up to its first space. */
  function Head(input: string): string {
    FirstWord(Trim(input))
  }

  /** Everything after the first space of the trimmed line, verbatim. */
  function Rest(input: string): string {
    AfterFirstSpace(Trim(input))
  }

  /** The word after the command word (empty when there is none). */
  function Second(input: string): string {
    FirstWord(Rest(input))
  }

  /** Everything after the word after the command word, verbatim. */
  function Third(input: string): string {
    AfterFirstSpace(Rest(input))
  }

  /** The pieces of `splitn(3, ' ')` on the trimmed line, named as words; a missing piece
      reads as empty, as `unwrap_or("")` makes it. */
  lemma Pieces(input: string)
    ensures var parts := SplitN3(Trim(input));
      && parts[0] == Head(input)
      && (parts[0] == [] <==> Trim(input) == [])
      && Join(parts[1..], " ") == Rest(input)
      && (|parts| >= 2 <==> ' ' in Trim(input))
      && (if |parts| >= 2 then parts[1] else "") == Second(input)
      && (if |parts| == 3 then parts[2] else "") == Third(input)
  {
  }

  /** A line that is one word, already trimmed, is its own head and has nothing after it. */
  lemma OneWord(w: string)
    requires w != [] && ' ' !in w && !IsWhitespace(w[0]) && !IsWhitespace(w[|w| - 1])
    ensures ' ' !in Trim(w)
    ensures Head(w) == w && Rest(w) == "" && Second(w) == "" && Third(w) == ""
  {
    TrimUnchanged(w);
    SplitOnceNone(w);
    SplitOnceNone("");
  }

  /** A line of two words. */
  lemma TwoWords(w: string, x: string)
    requires w != [] && ' ' !in w && !IsWhitespace(w[0])
    requires x != [] && ' ' !in x && !IsWhitespace(x[|x| - 1])
    ensures var input := w + " " + x;
      && ' ' in Trim(input)
      && Head(input) == w && Rest(input) == x && Second(input) == x && Third(input) == ""
  {
    var input := w + " " + x;
    assert input[|w|] == ' ';
    assert input[0] == w[0] && input[|input| - 1] == x[|x| - 1];
    TrimUnchanged(input);
    SplitOnceAt(w, x);
    SplitOnceNone(x);
  }

  /** A line of a command word, one more word, and a message that may hold spaces. */
  lemma ThreeWords(w: string, x: string, y: string)
    requires w != [] && ' ' !in w && !IsWhitespace(w[0])
    requires ' ' !in x
    requires y != [] && !IsWhitespace(y[|y| - 1])
    ensures var input := w + " " + x + " " + y;
      && Head(input) == w && Rest(input) == x + " " + y && Second(input) == x && Third(input) == y
  {
    var tail := x + " " + y;
    var input := w + " " + tail;
    assert input == w + " " + x + " " + y;
    assert input[0] == w[0] && input[|input| - 1] == y[|y| - 1];
    TrimUnchanged(input);
    SplitOnceAt(w, tail);
    SplitOnceAt(x, y);
  }

  /** A command word followed by a message that may hold spaces. */
  lemma WordAndText(w: string, y: string)
    requires w != [] && ' ' !in w && !IsWhitespace(w[0])
    requires y != [] && !IsWhitespace(y[|y| - 1])
    ensures var input := w + " " + y;
      Head(input) == w && Rest(input) == y
  {
    var input := w + " " + y;
    assert input[0] == w[0] && input[|input| - 1] == y[|y| - 1];
    TrimUnchanged(input);
    SplitOnceAt(w, y);
  }
}

=== FILE: handler.dfy ===
/** `ws::handler`: what one inbound frame does to the manager, and the session bracket of
    `client_connected`. Socket outcomes are given as a sequence of outcomes; the JSON decoding
    of a text frame is given as its result. */
module Handler {
  import opened Options
  import opened Seqs
  import opened Uuids
  import Msg
  import Storage
  import opened ClientManager

  /** The messages the hub decodes: the three variants `handle_message` matches on
      (morpheus/src/ws/handler.rs:36-64). This is deliberately not `Msg.ClientMessage`:
      that type is the client's own (neo/src/core/msg.rs), which also has
      `MessageReceived`, a variant the hub's handler has no arm for. The hub's own
      message file is not part of this model; since the handler's `match` has no wildcard
      arm and Rust matches are exhaustive, the hub's decoded type has exactly these three
      variants, and a frame of any other shape fails to decode and is `Malformed`. */
  datatype ClientMessage =
    | Connect(topic: string)
    | Message(topic: string, content: string)
    | ReplyToMorpheus(originalMsgId: Uuid, content: string)

  /** One frame as `handle_message` sees it: not text, text that does not decode, or a
      decoded message. */
  datatype Inbound = NonText | Malformed | Decoded(msg: ClientMessage)

  const INVALID_FORMAT: string := "Invalid message format"

  /** `handle_message` from client `clientId`; `msgId` is the id a `Message` frame's topic
      message is stamped with. */
  function HandleMessage(m: Manager, clientId: Uuid, frame: Inbound, msgId: Uuid): (r: Manager)
    ensures r.storage.clients.Keys == m.storage.clients.Keys
    ensures m.queues.Keys <= r.queues.Keys
    ensures QueuesGrow(m, r)
    ensures (frame.NonText? || (frame.Decoded? && frame.msg.ReplyToMorpheus?)) ==> r == m
    ensures frame.Malformed? ==>
      && r.storage == m.storage
      && Queue(r, clientId) ==
           (if clientId in m.storage.clients then Queue(m, clientId) + [Msg.Error(INVALID_FORMAT)] else Queue(m, clientId))
      && forall other | other != clientId :: Queue(r, other) == Queue(m, other)
    ensures frame.Decoded? && frame.msg.Connect? ==>
      && r.queues == m.queues
      && Storage.GetClient(r.storage, clientId) ==
           (if clientId in m.storage.clients then Some(Storage.Client(clientId, Some(frame.msg.topic))) else None)
      && forall other | other != clientId :: Storage.GetClient(r.storage, other) == Storage.GetClient(m.storage, other)
    ensures frame.Decoded? && frame.msg.Message? ==> r.storage == m.storage
  {
    match frame
    case NonText => m
    case Malformed => SendPrivateMessage(m, clientId, Msg.Error(INVALID_FORMAT))
    case Decoded(Connect(topic)) => Subscribe(m, clientId, topic)
    case Decoded(Message(topic, content)) =>
      BroadcastToTopic(m, topic, Msg.Topic(msgId, topic, Text(clientId), content), Some(clientId))
    case Decoded(ReplyToMorpheus(_, _)) => m
  }

  /** A `Message` frame sends one topic message, stamped with the fresh id, naming the
      payload's topic and the sender's displayed id, to every subscriber of the payload's
      topic except the sender. The sender's own subscription plays no part. */
  lemma MessageBroadcasts(m: Manager, clientId: Uuid, topic: string, content: string, msgId: Uuid, id: Uuid)
    requires Valid(m)
    ensures Queue(HandleMessage(m, clientId, Decoded(Message(topic, content)), msgId), id) ==
      if Storage.SubscribedTo(m.storage, id, topic) && id != clientId
      then Queue(m, id) + [Msg.Topic(msgId, topic, Text(clientId), content)]
      else Queue(m, id)
  {
    BroadcastToTopicDelivers(m, topic, Msg.Topic(msgId, topic, Text(clientId), content), Some(clientId), id);
  }

  /** Every frame keeps the manager invariant. */
  lemma HandleMessageValid(m: Manager, clientId: Uuid, frame: Inbound, msgId: Uuid)
    requires Valid(m)
    ensures Valid(HandleMessage(m, clientId, frame, msgId))
  {
    if frame.Decoded? && frame.msg.Connect? {
      SubscribeValid(m, clientId, frame.msg.topic);
    }
  }

  // ---------------------------------------------------------------------------
  // The session.

  /** One outcome of reading the socket: a frame (with the id a `Message` frame would be
      stamped with), or a read error. The end of the stream is the end of the sequence. */
  datatype ReadOutcome = Received(frame: Inbound, msgId: Uuid) | ReadError

  /** The read loop of `client_connected`: handles each frame in order, and stops at the
      first read error or at the end of the stream. */
  function ReadLoop(m: Manager, clientId: Uuid, outcomes: seq<ReadOutcome>): (r: Manager)
    ensures r.storage.clients.Keys == m.storage.clients.Keys
    ensures m.queues.Keys <= r.queues.Keys
    ensures QueuesGrow(m, r)
    ensures (outcomes == [] || outcomes[0].ReadError?) ==> r == m
    decreases |outcomes|
  {
    if outcomes == [] then m
    else match outcomes[0]
      case ReadError => m
      case Received(frame, msgId) => ReadLoop(HandleMessage(m, clientId, frame, msgId), clientId, outcomes[1..])
  }

  /** The read loop handles the first frame first, against the state it starts from, and
      goes on with the rest from the state that frame leaves. */
  lemma ReadLoopCons(m: Manager, clientId: Uuid, frame: Inbound, msgId: Uuid, rest: seq<ReadOutcome>)
    ensures ReadLoop(m, clientId, [Received(frame, msgId)] + rest) ==
      ReadLoop(HandleMessage(m, clientId, frame, msgId), clientId, rest)
  {
    assert ([Received(frame, msgId)] + rest)[1..] == rest;
  }

  /** `client_connected`: registers the connection under `newId`, runs the read loop, and
      deregisters it when the loop ends. */
  function ClientConnected(m: Manager, newId: Uuid, outcomes: seq<ReadOutcome>): (r: Manager)
    ensures Storage.GetClient(r.storage, newId) == None
    ensures forall id | id != newId :: Queue(m, id) <= Queue(r, id)
  {
    var (registered, id) := AddClient(m, newId);
    RemoveClient(ReadLoop(registered, id, outcomes), id)
  }

  /** What a session may have changed since `m0`: only client `id` was added, and with `id`
      struck out every topic lists what it listed in `m0`. */
  ghost predicate SessionState(m0: Manager, cur: Manager, id: Uuid) {
    && Valid(cur)
    && cur.storage.clients.Keys == m0.storage.clients.Keys + {id}
    && (forall other | other != id :: Storage.GetClient(cur.storage, other) == Storage.GetClient(m0.storage, other))
    && (forall t :: Without(Storage.Members(cur.storage, t), id) == Storage.Members(m0.storage, t))
  }

  lemma SessionStep(m0: Manager, cur: Manager, id: Uuid, frame: Inbound, msgId: Uuid)
    requires SessionState(m0, cur, id)
    ensures SessionState(m0, HandleMessage(cur, id, frame, msgId), id)
  {
    HandleMessageValid(cur, id, frame, msgId);
    if frame.Decoded? && frame.msg.Connect? {
      var topic := frame.msg.topic;
      var s := cur.storage;
      var r := HandleMessage(cur, id, frame, msgId).storage;
      forall t ensures Without(Storage.Members(r, t), id) == Storage.Members(m0.storage, t) {
        var before := Storage.Members(s, t);
        WithoutIdempotent(before, id);
        if t == topic {
          var kept := if Storage.SubscribedTo(s, id, topic) then Without(before, id) else before;
          assert kept == Without(before, id);
          WithoutAppend(kept, [id], id);
          assert Without([id], id) == [];
        } else if t in s.topics {
          assert Storage.SubscribedTo(s, id, t) || id !in before;
        }
      }
    }
  }

  lemma {:induction false} ReadLoopSession(m0: Manager, cur: Manager, id: Uuid, outcomes: seq<ReadOutcome>)
    requires SessionState(m0, cur, id)
    ensures SessionState(m0, ReadLoop(cur, id, outcomes), id)
    decreases |outcomes|
  {
    if outcomes != [] && outcomes[0].Received? {
      SessionStep(m0, cur, id, outcomes[0].frame, outcomes[0].msgId);
      ReadLoopSession(m0, HandleMessage(cur, id, outcomes[0].frame, outcomes[0].msgId), id, outcomes[1..]);
    }
  }

  /** A whole session, however its frames went, leaves the registry as it found it: the
      invariant holds, the same clients are registered with the same records, and every
      topic lists the same ids in the same order (an entry it created may stay behind,
      empty). Every queue only grew. */
  lemma Session(m: Manager, newId: Uuid, outcomes: seq<ReadOutcome>)
    requires Valid(m) && newId !in m.storage.clients
    ensures var r := ClientConnected(m, newId, outcomes);
      && Valid(r)
      && r.storage.clients == m.storage.clients
      && (forall t :: Storage.Members(r.storage, t) == Storage.Members(m.storage, t))
  {
    SessionStart(m, newId);
    var registered := AddClient(m, newId).0;
    ReadLoopSession(m, registered, newId, outcomes);
    SessionEnd(m, ReadLoop(registered, newId, outcomes), newId);
  }

  /** Registering a fresh id starts a session. */
  lemma SessionStart(m: Manager, newId: Uuid)
    requires Valid(m) && newId !in m.storage.clients
    ensures SessionState(m, AddClient(m, newId).0, newId)
  {
    var registered := AddClient(m, newId).0;
    AddClientValid(m, newId);
    forall t ensures Without(Storage.Members(registered.storage, t), newId) == Storage.Members(m.storage, t) {
      assert newId !in Storage.Members(m.storage, t);
    }
  }

  /** Deregistering the session's client restores the registry it started from. */
  lemma SessionEnd(m0: Manager, cur: Manager, id: Uuid)
    requires SessionState(m0, cur, id) && id !in m0.storage.clients
    ensures var r := RemoveClient(cur, id);
      && Valid(r)
      && r.storage.clients == m0.storage.clients
      && (forall t :: Storage.Members(r.storage, t) == Storage.Members(m0.storage, t))
  {
    var r := RemoveClient(cur, id);
    RemoveClientValid(cur, id);
    forall t ensures Storage.Members(r.storage, t) == Storage.Members(m0.storage, t) {
      var now := Storage.Members(cur.storage, t);
      assert Storage.SubscribedTo(cur.storage, id, t) || id !in now;
    }
    assert r.storage.clients.Keys == m0.storage.clients.Keys;
    forall other | other in m0.storage.clients ensures r.storage.clients[other] == m0.storage.clients[other] {
      assert Storage.GetClient(r.storage, other) == Storage.GetClient(m0.storage, other);
    }
  }

  /** A session that sends one `Message` frame and ends: the frame is handled as coming
      from the newly registered client, so every subscriber of the named topic gets the
      topic message with the client's displayed id as sender, and the new client's own
      queue, started afresh, stays empty. */
  lemma SessionDelivers(m: Manager, newId: Uuid, topic: string, content: string, msgId: Uuid, id: Uuid)
    requires Valid(m) && newId !in m.storage.clients
    ensures Queue(ClientConnected(m, newId, [Received(Decoded(Message(topic, content)), msgId)]), id) ==
      if id == newId then []
      else if Storage.SubscribedTo(m.storage, id, topic) then Queue(m, id) + [Msg.Topic(msgId, topic, Text(newId), content)]
      else Queue(m, id)
  {
    var registered := AddClient(m, newId).0;
    AddClientValid(m, newId);
    var frame := Decoded(Message(topic, content));
    ReadLoopCons(registered, newId, frame, msgId, []);
    assert [Received(frame, msgId)] + [] == [Received(frame, msgId)];
    MessageBroadcasts(registered, newId, topic, content, msgId, id);
    if id != newId {
      assert Storage.GetClient(registered.storage, id) == Storage.GetClient(m.storage, id);
    }
  }

  /** A session whose only frame is malformed: the client is registered before its first
      frame is read, so the error reply goes to its own, freshly started queue and is the
      only thing on it. */
  lemma SessionMalformed(m: Manager, newId: Uuid, k: Uuid)
    requires Valid(m) && newId !in m.storage.clients
    ensures Queue(ClientConnected(m, newId, [Received(Malformed, k)]), newId) == [Msg.Error(INVALID_FORMAT)]
  {
    var registered := AddClient(m, newId).0;
    AddClientValid(m, newId);
    ReadLoopCons(registered, newId, Malformed, k, []);
    assert [Received(Malformed, k)] + [] == [Received(Malformed, k)];
  }

  /** Every outcome is a received malformed frame. */
  ghost predicate AllMalformed(fs: seq<ReadOutcome>) {
    forall i | 0 <= i < |fs| :: fs[i].Received? && fs[i].frame.Malformed?
  }

  /** Nothing after a read error is read: the loop over received frames, a read error
      and anything else ends where the frames end. */
  lemma {:induction false} ReadLoopStops(m: Manager, id: Uuid, fs: seq<ReadOutcome>, more: seq<ReadOutcome>)
    requires forall i | 0 <= i < |fs| :: fs[i].Received?
    ensures ReadLoop(m, id, fs + [ReadError] + more) == ReadLoop(m, id, fs)
    decreases |fs|
  {
    if fs == [] {
      assert (fs + [ReadError] + more)[0] == ReadError;
    } else {
      var next := HandleMessage(m, id, fs[0].frame, fs[0].msgId);
      assert (fs + [ReadError] + more)[0] == fs[0];
      assert (fs + [ReadError] + more)[1..] == fs[1..] + [ReadError] + more;
      ReadLoopStops(next, id, fs[1..], more);
    }
  }

  /** The read loop handles every frame until the stream ends: a run of malformed frames
      from a registered client puts one error reply per frame on its queue. */
  lemma {:induction false} ReadLoopMalformed(m: Manager, id: Uuid, fs: seq<ReadOutcome>)
    requires id in m.storage.clients && AllMalformed(fs)
    ensures Queue(ReadLoop(m, id, fs), id) == Queue(m, id) + Copies(Msg.Error(INVALID_FORMAT), |fs|)
    decreases |fs|
  {
    if fs != [] {
      var err := Msg.Error(INVALID_FORMAT);
      var k := fs[0].msgId;
      var next := HandleMessage(m, id, Malformed, k);
      assert AllMalformed(fs[1..]) by {
        forall i | 0 <= i < |fs[1..]| ensures fs[1..][i].Received? && fs[1..][i].frame.Malformed? {
          assert fs[1..][i] == fs[i + 1];
        }
      }
      ReadLoopMalformed(next, id, fs[1..]);
      assert ReadLoop(m, id, fs) == ReadLoop(next, id, fs[1..]);
      assert Copies(err, |fs|) == [err] + Copies(err, |fs[1..]|);
      ConcatAssoc(Queue(m, id), [err], Copies(err, |fs[1..]|));
    }
  }

  /** A session of malformed frames, cut short by a read error: the freshly registered
      client gets one error reply for each frame read before the error, and none for
      anything after it. */
  lemma SessionMalformedFrames(m: Manager, newId: Uuid, fs: seq<ReadOutcome>, more: seq<ReadOutcome>)
    requires Valid(m) && newId !in m.storage.clients && AllMalformed(fs)
    ensures Queue(ClientConnected(m, newId, fs), newId) == Copies(Msg.Error(INVALID_FORMAT), |fs|)
    ensures Queue(ClientConnected(m, newId, fs + [ReadError] + more), newId) == Copies(Msg.Error(INVALID_FORMAT), |fs|)
  {
    var registered := AddClient(m, newId).0;
    AddClientValid(m, newId);
    ReadLoopMalformed(registered, newId, fs);
    ReadLoopStops(registered, newId, fs, more);
    assert [] + Copies(Msg.Error(INVALID_FORMAT), |fs|) == Copies(Msg.Error(INVALID_FORMAT), |fs|);
  }
}

=== FILE: msg.dfy ===
/** The wire messages. JSON encoding and decoding is not modelled: a message is its
    decoded value. */
module Msg {
  import opened Uuids

  /** Hub to client. */
  datatype ServerMessage =
    | Global(id: Uuid, content: string)
    | Topic(id: Uuid, topic: string, sender: string, content: string)
    | Private(id: Uuid, content: string)
    | MessageDelivered(msgId: Uuid)
    | MessageAcknowledged(msgId: Uuid, clientId: Uuid)
    | Error(message: string)

  /** Client to hub. */
  datatype ClientMessage =
    | Connect(topic: string)
    | Message(topic: string, content: string)
    | ReplyToMorpheus(originalMsgId: Uuid, content: string)
    | MessageReceived(msgId: Uuid)
}

=== FILE: neo_client.dfy ===
/** `core::client` of the `neo` client: what it sends to the hub. The connection is the
    sequence of messages sent, in order; every send is taken to succeed. */
module NeoClient {
  import opened Options
  import opened Uuids
  import opened RustStr
  import opened Msg
  import UserCommands

  /** `handle_user_input`: a message goes to the client's own topic, a reply goes to the
      hub as a reply to the named message, and help or an error sends nothing. */
  function HandleUserInput(topic: string, input: string): (r: Option<ClientMessage>)
    ensures r.Some? ==> r.value.Message? || r.value.ReplyToMorpheus?
    ensures r.Some? && r.value.Message? ==> r.value.topic == topic
    ensures var c := UserCommands.ParseCommand(input);
      && (c.Help? || c.Unknown? <==> r == None)
      && (c.Message? ==> r == Some(ClientMessage.Message(topic, c.content)))
      && (c.Reply? ==> r == Some(ReplyToMorpheus(c.msgId, c.content)))
  {
    match UserCommands.ParseCommand(input)
    case Message(content) => Some(ClientMessage.Message(topic, content))
    case Reply(msgId, content) => Some(ReplyToMorpheus(msgId, content))
    case Help => None
    case Unknown(_) => None
  }

  /** A line that is not a command is sent to the client's own topic, trimmed. */
  lemma PlainTextSent(topic: string, input: string)
    requires !UserCommands.IsCommandLine(input) && !AllWhitespace(input)
    ensures HandleUserInput(topic, input) == Some(ClientMessage.Message(topic, Trim(input)))
  {
  }

  /** A reply to the displayed id of a message is sent to the hub as a reply to that id,
      with the text after the id. */
  lemma ReplySent(topic: string, word: string, u: Uuid, content: string)
    requires word == "/reply" || word == "/r"
    requires content != "" && !IsWhitespace(content[|content| - 1])
    ensures HandleUserInput(topic, word + " " + Text(u) + " " + content) == Some(ReplyToMorpheus(u, content))
  {
    UserCommands.ParseReplyOfText(word, u, content);
  }

  /** One outcome of `read_line` on the input: a line of at least one byte, the end of the
      input (`Ok(0)`), or a read error. */
  datatype LineRead = Line(text: string) | EndOfInput | ReadFailure

  /** The user-input arm of `run`'s loop: each line is trimmed and, unless that leaves it
      empty, handled; the loop ends at the end of the input or at a read error. Server
      messages arriving in between are not modelled. */
  function InputLoop(topic: string, lines: seq<LineRead>): (sent: seq<ClientMessage>)
    ensures forall i | 0 <= i < |sent| :: sent[i].Message? || sent[i].ReplyToMorpheus?
    ensures forall i | 0 <= i < |sent| :: sent[i].Message? ==> sent[i].topic == topic
    ensures |sent| <= |lines|
    decreases |lines|
  {
    if lines == [] then []
    else match lines[0]
      case EndOfInput => []
      case ReadFailure => []
      case Line(text) => LineMessages(topic, text) + InputLoop(topic, lines[1..])
  }

  /** What one line read from the input sends: nothing for a blank line, and otherwise
      what `handle_user_input` makes of the trimmed line. */
  function LineMessages(topic: string, text: string): (now: seq<ClientMessage>)
    ensures |now| <= 1
    ensures AllWhitespace(text) ==> now == []
    ensures !AllWhitespace(text) ==>
      now == match HandleUserInput(topic, Trim(text)) case Some(m) => [m] case None => []
    ensures forall i | 0 <= i < |now| :: now[i].Message? || now[i].ReplyToMorpheus?
    ensures forall i | 0 <= i < |now| :: now[i].Message? ==> now[i].topic == topic
  {
    var content := Trim(text);
    if content == [] then []
    else match HandleUserInput(topic, content)
      case Some(m) => [m]
      case None => []
  }

  /** `run`: announces the topic with `Connect` before sending anything else. */
  function Run(topic: string, lines: seq<LineRead>): (sent: seq<ClientMessage>)
    ensures |sent| >= 1 && sent[0] == Connect(topic)
    ensures forall i | 1 <= i < |sent| :: !sent[i].Connect?
    ensures forall i | 0 <= i < |sent| :: sent[i].Message? ==> sent[i].topic == topic
  {
    [Connect(topic)] + InputLoop(topic, lines)
  }

  /** A blank line sends nothing, and the loop goes on to the next line. */
  lemma BlankLineSkipped(topic: string, text: string, lines: seq<LineRead>)
    requires AllWhitespace(text)
    ensures InputLoop(topic, [Line(text)] + lines) == InputLoop(topic, lines)
  {
    var all := [Line(text)] + lines;
    assert all[0] == Line(text) && all[1..] == lines;
    assert Trim(text) == [];
  }

  /** A line that is not blank and not a command is sent, trimmed, to the client's own
      topic. */
  lemma PlainLineSent(topic: string, text: string)
    requires !AllWhitespace(text) && !UserCommands.IsCommandLine(text)
    ensures InputLoop(topic, [Line(text)]) == [ClientMessage.Message(topic, Trim(text))]
  {
    var t := Trim(text);
    TrimIdempotent(text);
    PlainTextSent(topic, t);
    assert [Line(text)][1..] == [];
  }

  /** Nothing after the end of the input or a read error is read. */
  lemma {:induction false} StopsAtEnd(topic: string, lines: seq<LineRead>, more: seq<LineRead>)
    requires lines != [] && (lines[|lines| - 1].EndOfInput? || lines[|lines| - 1].ReadFailure?)
    ensures InputLoop(topic, lines + more) == InputLoop(topic, lines)
    decreases |lines|
  {
    assert (lines + more)[0] == lines[0];
    if lines[0].Line? {
      assert (lines + more)[1..] == lines[1..] + more;
      StopsAtEnd(topic, lines[1..], more);
    }
  }

  /** The lines are handled in order: the messages sent for `a + b`, when `a` neither ends
      the input nor fails, are those sent for `a` followed by those sent for `b`. */
  lemma {:induction false} InputLoopAppend(topic: string, a: seq<LineRead>, b: seq<LineRead>)
    requires forall i | 0 <= i < |a| :: a[i].Line?
    ensures InputLoop(topic, a + b) == InputLoop(topic, a) + InputLoop(topic, b)
    decreases |a|
  {
    if a == [] {
      assert a + b == b;
    } else {
      assert (a + b)[0] == a[0];
      assert (a + b)[1..] == a[1..] + b;
      InputLoopAppend(topic, a[1..], b);
    }
  }

  /** A line on its own sends exactly what `LineMessages` makes of it, so every line, command
      or not, reaches `handle_user_input` once it is trimmed and not blank. */
  lemma LineSent(topic: string, text: string)
    ensures InputLoop(topic, [Line(text)]) == LineMessages(topic, text)
  {
    assert [Line(text)][1..] == [];
  }

  /** Typing a `/msg` line: the client announces its topic, then sends the message text to
      that topic. */
  lemma RunMsg(topic: string, word: string, content: string)
    requires word == "/msg" || word == "/m"
    requires content != "" && !IsWhitespace(content[|content| - 1])
    ensures Run(topic, [Line(word + " " + content)]) == [Connect(topic), ClientMessage.Message(topic, content)]
  {
    var line := word + " " + content;
    assert line[0] == '/' && line[|line| - 1] == content[|content| - 1];
    TrimUnchanged(line);
    UserCommands.ParseMsgOfText(word, content);
    LineSent(topic, line);
  }

  /** Typing a reply to a displayed message id: the client announces its topic, then sends
      the reply to that id with the text after it. */
  lemma RunReply(topic: string, word: string, u: Uuid, content: string)
    requires word == "/reply" || word == "/r"
    requires content != "" && !IsWhitespace(content[|content| - 1])
    ensures Run(topic, [Line(word + " " + Text(u) + " " + content)]) == [Connect(topic), ReplyToMorpheus(u, content)]
  {
    var line := word + " " + Text(u) + " " + content;
    assert line[0] == '/' && line[|line| - 1] == content[|content| - 1];
    TrimUnchanged(line);
    ReplySent(topic, word, u, content);
    LineSent(topic, line);
  }
}

=== FILE: options.dfy ===
/** Rust's `Option`, as the registry, the parsers and the dispatcher use it. */
module Options {

  datatype Option<+T> = None | Some(value: T) {

    /** `unwrap_or`: the carried value, or `default` when there is none. */
    function UnwrapOr(default: T): T {
      match this
      case Some(v) => v
      case None => default
    }
  }
}

=== FILE: ruststr.dfy ===
/** The few `str` operations the two command parsers are built from:
    `trim`, ASCII lower-casing, `splitn(3, ' ')` and `join(" ")`. */
module RustStr {
  import opened Options

  /** `char::is_whitespace`: the Unicode White_Space property, which is this finite list. */
  predicate IsWhitespace(c: char) {
    || ('\t' <= c <= '\r')
    || c == ' '
    || c == '\U{0085}'
    || c == '\U{00A0}'
    || c == '\U{1680}'
    || ('\U{2000}' <= c <= '\U{200A}')
    || c == '\U{2028}'
    || c == '\U{2029}'
    || c == '\U{202F}'
    || c == '\U{205F}'
    || c == '\U{3000}'
  }

  ghost predicate AllWhitespace(s: string) {
    forall k | 0 <= k < |s| :: IsWhitespace(s[k])
  }

  /** The end of the whitespace run that starts at `i`: the first index at or after `i`
      that holds no whitespace, or `|s|`. */
  function SkipWhitespace(s: string, i: nat): (j: nat)
    requires i <= |s|
    ensures i <= j <= |s|
    ensures forall k | i <= k < j :: IsWhitespace(s[k])
    ensures j == |s| || !IsWhitespace(s[j])
    decreases |s| - i
  {
    if i < |s| && IsWhitespace(s[i]) then SkipWhitespace(s, i + 1) else i
  }

  /** The start of the whitespace run that ends at `j`. */
  function BackWhitespace(s: string, j: nat): (i: nat)
    requires j <= |s|
    ensures i <= j
    ensures forall k | i <= k < j :: IsWhitespace(s[k])
    ensures i == 0 || !IsWhitespace(s[i - 1])
  {
    if j > 0 && IsWhitespace(s[j - 1]) then BackWhitespace(s, j - 1) else j
  }

  /** `str::trim`: the slice of `s` between its leading and its trailing whitespace. It
      neither starts nor ends with whitespace, and it is empty exactly for a blank line. */
  function Trim(s: string): (r: string)
    ensures var i := SkipWhitespace(s, 0);
      && i + |r| <= |s|
      && r == s[i..i + |r|]
      && (forall k | 0 <= k < i :: IsWhitespace(s[k]))
      && (forall k | i + |r| <= k < |s| :: IsWhitespace(s[k]))
    ensures r == [] || (!IsWhitespace(r[0]) && !IsWhitespace(r[|r| - 1]))
    ensures r == [] <==> AllWhitespace(s)
  {
    var i := SkipWhitespace(s, 0);
    if i == |s| then []
    else
      var j := BackWhitespace(s, |s|);
      assert !IsWhitespace(s[i]);
      s[i..j]
  }

  /** A string that neither starts nor ends with whitespace is its own trim. */
  lemma TrimUnchanged(s: string)
    requires s != [] && !IsWhitespace(s[0]) && !IsWhitespace(s[|s| - 1])
    ensures Trim(s) == s
  {
    assert SkipWhitespace(s, 0) == 0;
    assert BackWhitespace(s, |s|) == |s|;
  }

  /** Trimming twice is trimming once. */
  lemma TrimIdempotent(s: string)
    ensures Trim(Trim(s)) == Trim(s)
  {
    var t := Trim(s);
    if t != [] {
      TrimUnchanged(t);
    }
  }

  /** Lower-cases the ASCII letters and leaves every other character alone. */
  function ToLower(s: string): (r: string)
    ensures |r| == |s|
    ensures forall k | 0 <= k < |s| :: r[k] == if 'A' <= s[k] <= 'Z' then (s[k] as int + 32) as char else s[k]
  {
    if s == [] then []
    else [if 'A' <= s[0] <= 'Z' then (s[0] as int + 32) as char else s[0]] + ToLower(s[1..])
  }

  /** Splits at the first space: the part before it, and the part after it if there was one. */
  function SplitOnce(s: string): (r: (string, Option<string>))
    ensures ' ' !in r.0
    ensures r.1.None? ==> r.0 == s
    ensures r.1.Some? ==> s == r.0 + " " + r.1.value
  {
    if s == [] then ("", None)
    else if s[0] == ' ' then
      assert s == "" + " " + s[1..];
      ("", Some(s[1..]))
    else
      var (a, b) := SplitOnce(s[1..]);
      assert b.Some? ==> s == ([s[0]] + a) + " " + b.value by {
        if b.Some? {
          assert s == [s[0]] + s[1..];
        }
      }
      assert b.None? ==> s == [s[0]] + a by {
        if b.None? {
          assert s == [s[0]] + s[1..];
        }
      }
      ([s[0]] + a, b)
  }

  /** Everything before the first space (all of `s` when there is none). */
  function FirstWord(s: string): string {
    SplitOnce(s).0
  }

  /** Everything after the first space, verbatim (empty when there is no space). */
  function AfterFirstSpace(s: string): string {
    SplitOnce(s).1.UnwrapOr("")
  }

  /** `parts.join(sep)`. */
  function Join(parts: seq<string>, sep: string): string {
    if parts == [] then ""
    else if |parts| == 1 then parts[0]
    else parts[0] + sep + Join(parts[1..], sep)
  }

  /** `s.splitn(3, ' ')`: one to three pieces that join back to `s`; the pieces before
      the last hold no space, and the last holds one only when it is the third. */
  function SplitN3(s: string): (parts: seq<string>)
    ensures 1 <= |parts| <= 3
    ensures Join(parts, " ") == s
    ensures forall i | 0 <= i < |parts| - 1 :: ' ' !in parts[i]
    ensures |parts| < 3 ==> ' ' !in parts[|parts| - 1]
    ensures parts[0] == FirstWord(s)
    ensures Join(parts[1..], " ") == AfterFirstSpace(s)
    ensures |parts| >= 2 <==> ' ' in s
    ensures (if |parts| >= 2 then parts[1] else "") == FirstWord(AfterFirstSpace(s))
    ensures |parts| == 3 <==> ' ' in AfterFirstSpace(s)
    ensures (if |parts| == 3 then parts[2] else "") == AfterFirstSpace(AfterFirstSpace(s))
  {
    var (first, rest) := SplitOnce(s);
    match rest
    case None => [first]
    case Some(tail) =>
      var (second, rest2) := SplitOnce(tail);
      match rest2
      case None => [first, second]
      case Some(third) =>
        var parts := [first, second, third];
        assert parts[1..] == [second, third];
        assert Join([second, third], " ") == second + " " + third;
        assert [second, third][1..] == [third];
        parts
  }

  /** `w` spells the word `c` with some of its lower-case ASCII letters in upper case. */
  ghost predicate CaseVariant(w: string, c: string) {
    && |w| == |c|
    && forall k | 0 <= k < |w| :: w[k] == c[k] || ('a' <= c[k] <= 'z' && w[k] as int == c[k] as int - 32)
  }

  /** Lower-casing undoes any capitalisation of a lower-case word. */
  lemma CaseVariantLower(w: string, c: string)
    requires CaseVariant(w, c) && ToLower(c) == c
    ensures ToLower(w) == c
  {
    forall k | 0 <= k < |w| ensures ToLower(w)[k] == c[k] {
      assert ToLower(c)[k] == c[k];
    }
  }

  /** `join(" ")` undoes `splitn(3, ' ')`: one to three pieces, none but a third holding a
      space, split back into themselves. */
  lemma SplitN3Join(parts: seq<string>)
    requires 1 <= |parts| <= 3
    requires forall i | 0 <= i < |parts| - 1 :: ' ' !in parts[i]
    requires |parts| < 3 ==> ' ' !in parts[|parts| - 1]
    ensures SplitN3(Join(parts, " ")) == parts
  {
    if |parts| == 1 {
      SplitOne(parts);
    } else if |parts| == 2 {
      SplitTwo(parts);
    } else {
      SplitThree(parts);
    }
  }

  /** `SplitN3Join` for one, two and three pieces. */
  lemma SplitOne(parts: seq<string>)
    requires |parts| == 1 && ' ' !in parts[0]
    ensures SplitN3(Join(parts, " ")) == parts
  {
    SplitOnceNone(parts[0]);
  }

  lemma SplitTwo(parts: seq<string>)
    requires |parts| == 2 && ' ' !in parts[0] && ' ' !in parts[1]
    ensures SplitN3(Join(parts, " ")) == parts
  {
    var a, b := parts[0], parts[1];
    assert Join(parts, " ") == a + " " + b by {
      assert parts[1..] == [b];
    }
    SplitOnceAt(a, b);
    SplitOnceNone(b);
  }

  lemma SplitThree(parts: seq<string>)
    requires |parts| == 3 && ' ' !in parts[0] && ' ' !in parts[1]
    ensures SplitN3(Join(parts, " ")) == parts
  {
    var a, b, c := parts[0], parts[1], parts[2];
    assert Join(parts[1..], " ") == b + " " + c by {
      assert parts[1..][1..] == [c];
    }
    assert Join(parts, " ") == a + " " + (b + " " + c);
    SplitOnceAt(a, b + " " + c);
    SplitOnceAt(b, c);
  }

  /** Splitting `w + " " + x` at its first space gives `w` and `x` back when `w` has no space. */
  lemma {:induction false} SplitOnceAt(w: string, x: string)
    requires ' ' !in w
    ensures SplitOnce(w + " " + x) == (w, Some(x))
  {
    var s := w + " " + x;
    if w == [] {
      assert s[1..] == x;
    } else {
      assert s[1..] == w[1..] + " " + x;
      SplitOnceAt(w[1..], x);
      assert [w[0]] + w[1..] == w;
    }
  }

  /** A string without a space is not split. */
  lemma SplitOnceNone(s: string)
    requires ' ' !in s
    ensures SplitOnce(s) == (s, None)
  {
  }

  /** Lower-casing leaves a string without upper-case ASCII letters unchanged. */
  lemma {:induction false} ToLowerUnchanged(s: string)
    requires forall k | 0 <= k < |s| :: !('A' <= s[k] <= 'Z')
    ensures ToLower(s) == s
  {
    if s != [] {
      ToLowerUnchanged(s[1..]);
    }
  }
}

=== FILE: seqs.dfy ===
/** Sequence helpers shared by the registry and the fan-out: duplicate-freedom,
    `Vec::retain(|x| x != v)`, and runs of one repeated element. */
module Seqs {

  /** No element occurs twice. */
  ghost predicate Unique<T>(xs: seq<T>) {
    forall i, j | 0 <= i < j < |xs| :: xs[i] != xs[j]
  }

  /** `xs.retain(|y| y != x)`: drops every occurrence of `x`, keeping the order of the rest. */
  function Without<T(==,!new)>(xs: seq<T>, x: T): (r: seq<T>)
    ensures forall y :: y in r <==> y in xs && y != x
    ensures x !in xs ==> r == xs
    ensures |r| <= |xs|
  {
    if xs == [] then []
    else
      assert xs == [xs[0]] + xs[1..];
      (if xs[0] == x then [] else [xs[0]]) + Without(xs[1..], x)
  }

  /** `retain` removes every copy of `x` and keeps the count of every other element. */
  lemma {:induction false} WithoutCount<T(!new)>(xs: seq<T>, x: T)
    ensures multiset(Without(xs, x)) == multiset(xs)[x := 0]
  {
    if xs != [] {
      assert xs == [xs[0]] + xs[1..];
      WithoutCount(xs[1..], x);
    }
  }

  /** `retain` keeps a duplicate-free sequence duplicate-free. */
  lemma WithoutUnique<T(!new)>(xs: seq<T>, x: T)
    requires Unique(xs)
    ensures Unique(Without(xs, x))
  {
    UniqueCount(xs);
    WithoutCount(xs, x);
    UniqueCount(Without(xs, x));
  }

  /** `n` copies of `x`. */
  function Copies<T>(x: T, n: nat): (r: seq<T>)
    ensures |r| == n
    ensures forall i | 0 <= i < n :: r[i] == x
  {
    if n == 0 then [] else [x] + Copies(x, n - 1)
  }

  /** A sequence is duplicate-free exactly when every element occurs once. */
  lemma {:induction false} UniqueCount<T>(xs: seq<T>)
    ensures Unique(xs) <==> forall x | x in xs :: multiset(xs)[x] == 1
  {
    if xs != [] {
      var rest := xs[1..];
      assert xs == [xs[0]] + rest;
      UniqueCount(rest);
      if Unique(xs) {
        assert Unique(rest) by {
          forall i, j | 0 <= i < j < |rest| ensures rest[i] != rest[j] {
            assert rest[i] == xs[i + 1] && rest[j] == xs[j + 1];
          }
        }
        assert xs[0] !in rest by {
          forall k | 0 <= k < |rest| ensures rest[k] != xs[0] {
            assert rest[k] == xs[k + 1];
          }
        }
      }
      if forall x | x in xs :: multiset(xs)[x] == 1 {
        assert xs[0] !in rest by {
          assert multiset(xs)[xs[0]] == 1 + multiset(rest)[xs[0]];
        }
        forall x | x in rest ensures multiset(rest)[x] == 1 {
          assert multiset(xs)[x] == multiset([xs[0]])[x] + multiset(rest)[x];
        }
        forall i, j | 0 <= i < j < |xs| ensures xs[i] != xs[j] {
          if i == 0 {
            assert xs[j] == rest[j - 1];
          } else {
            assert xs[i] == rest[i - 1] && xs[j] == rest[j - 1];
          }
        }
      }
    }
  }

  /** Appending an element that is absent keeps a sequence duplicate-free. */
  lemma AppendFreshUnique<T>(xs: seq<T>, x: T)
    requires Unique(xs) && x !in xs
    ensures Unique(xs + [x])
  {
  }

  /** Removing a value twice is removing it once. */
  lemma WithoutIdempotent<T(!new)>(xs: seq<T>, x: T)
    ensures Without(Without(xs, x), x) == Without(xs, x)
  {
  }

  /** The count of `x` in a non-empty sequence: its head's share plus the tail's. */
  lemma MultisetHead<T>(xs: seq<T>, x: T)
    requires xs != []
    ensures multiset(xs)[x] == (if x == xs[0] then 1 else 0) + multiset(xs[1..])[x]
  {
    assert xs == [xs[0]] + xs[1..];
  }

  /** `retain` on a sequence with a known head. */
  lemma WithoutCons<T(!new)>(y: T, rest: seq<T>, x: T)
    ensures Without([y] + rest, x) == (if y == x then [] else [y]) + Without(rest, x)
  {
    assert ([y] + rest)[1..] == rest;
  }

  /** Concatenation is associative. */
  lemma ConcatAssoc<T>(a: seq<T>, b: seq<T>, c: seq<T>)
    ensures a + (b + c) == (a + b) + c
  {
  }

  /** `retain` distributes over concatenation. */
  lemma {:induction false} WithoutAppend<T(!new)>(a: seq<T>, b: seq<T>, x: T)
    ensures Without(a + b, x) == Without(a, x) + Without(b, x)
  {
    if a == [] {
      assert a + b == b;
    } else {
      var head := if a[0] == x then [] else [a[0]];
      WithoutAppend(a[1..], b, x);
      assert a == [a[0]] + a[1..];
      ConcatAssoc([a[0]], a[1..], b);
      WithoutCons(a[0], a[1..] + b, x);
      WithoutCons(a[0], a[1..], x);
      ConcatAssoc(head, Without(a[1..], x), Without(b, x));
    }
  }
}

=== FILE: server.dfy ===
/** `core::server` of the hub: what one administrator command does. Printing is modelled
    by the `Reaction` a command leads to; the message id `Uuid::new_v4` would draw is a
    parameter. */
module Server {
  import opened Options
  import opened Uuids
  import Msg
  import opened Storage
  import opened ClientManager
  import A = AdminCommands

  /** What the console shows after a command. */
  datatype Reaction =
    | ListedClients(clients: set<Client>)
    | ListedTopics(topics: set<string>)
    | ListedTopic(topic: string, members: seq<Client>)
    | Sent
    | ShowHelp
    | ShutDown
    | ShowError(message: string)
    | Prompt

  /** The sender name of a topic message the administrator sends. */
  const ADMIN_SENDER: string := "Morpheus"

  /** The `match` of `run_cli` with `handle_list_command`, `handle_global_command`,
      `handle_topic_command` and `handle_private_command`. No command changes the registry;
      only the three sending commands change queues. */
  function RunCommand(m: Manager, cmd: A.Command, msgId: Uuid): (r: (Manager, Reaction))
    ensures r.0.storage == m.storage
    ensures !(cmd.Global? || cmd.Topic? || cmd.Private?) ==> r.0 == m
    ensures cmd.List? ==>
      r.1 == match cmd.scope
        case All => ListedClients(GetAllClients(m.storage))
        case Topics => ListedTopics(GetAllTopics(m.storage))
        case Topic(t) => ListedTopic(t, GetClientsInTopic(m.storage, t))
    ensures cmd.Global? ==> forall id ::
      Queue(r.0, id) == if id in m.storage.clients then Queue(m, id) + [Msg.Global(msgId, cmd.content)] else Queue(m, id)
    ensures cmd.Private? ==> forall id ::
      Queue(r.0, id) ==
        if id == cmd.clientId && id in m.storage.clients then Queue(m, id) + [Msg.Private(msgId, cmd.content)]
        else Queue(m, id)
    ensures cmd.Unknown? ==> r.1 == if cmd.message == "" then Prompt else ShowError(cmd.message)
    ensures cmd.Help? <==> r.1 == ShowHelp
    ensures cmd.Exit? <==> r.1 == ShutDown
    ensures (cmd.Global? || cmd.Topic? || cmd.Private?) <==> r.1 == Sent
  {
    match cmd
    case Help => (m, ShowHelp)
    case List(scope) =>
      var shown := match scope
        case All => ListedClients(GetAllClients(m.storage))
        case Topics => ListedTopics(GetAllTopics(m.storage))
        case Topic(t) => ListedTopic(t, GetClientsByTopic(m, t));
      (m, shown)
    case Global(content) => (BroadcastGlobal(m, Msg.Global(msgId, content)), Sent)
    case Topic(topic, content) =>
      (BroadcastToTopic(m, topic, Msg.Topic(msgId, topic, ADMIN_SENDER, content), None), Sent)
    case Private(clientId, content) => (SendPrivateMessage(m, clientId, Msg.Private(msgId, content)), Sent)
    case Exit => (m, ShutDown)
    case Unknown(message) => (m, if message != "" then ShowError(message) else Prompt)
  }

  /** A topic command reaches every subscriber of the topic once, the administrator being
      no client to exclude, and no one else. */
  lemma TopicCommandDelivers(m: Manager, topic: string, content: string, msgId: Uuid, id: Uuid)
    requires ClientManager.Valid(m)
    ensures Queue(RunCommand(m, A.Command.Topic(topic, content), msgId).0, id) ==
      if SubscribedTo(m.storage, id, topic) then Queue(m, id) + [Msg.Topic(msgId, topic, ADMIN_SENDER, content)]
      else Queue(m, id)
  {
    BroadcastToTopicDelivers(m, topic, Msg.Topic(msgId, topic, ADMIN_SENDER, content), None, id);
  }

  /** Every command keeps the manager invariant. */
  lemma RunCommandValid(m: Manager, cmd: A.Command, msgId: Uuid)
    requires ClientManager.Valid(m)
    ensures ClientManager.Valid(RunCommand(m, cmd, msgId).0)
  {
  }
}

=== FILE: storage.dfy ===
/** The registry: `InMemoryStorage`, a table of client records and a table from topic
    name to the ids subscribed to it. Each operation is one atomic step; the per-key
    locking of the concurrent maps is not modelled. */
module Storage {
  import opened Options
  import opened Seqs
  import opened Uuids

  /** A registered client, as the read operations return it. Its outbound channel is the
      manager's queue for `id`. */
  datatype Client = Client(id: Uuid, topic: Option<string>)

  /** `clients` maps each registered id to the topic its record names. The source keys every
      record by its own `id` field and never changes that field, so a record is determined by
      its key and its topic. */
  datatype InMemoryStorage = InMemoryStorage(clients: map<Uuid, Option<string>>, topics: map<string, seq<Uuid>>)

  const Empty: InMemoryStorage := InMemoryStorage(map[], map[])

  /** The ids listed under `topic`; empty when the topic has no entry. */
  function Members(s: InMemoryStorage, topic: string): seq<Uuid> {
    if topic in s.topics then s.topics[topic] else []
  }

  /** `id` is registered and its record names `topic`. */
  predicate SubscribedTo(s: InMemoryStorage, id: Uuid, topic: string) {
    id in s.clients && s.clients[id] == Some(topic)
  }

  /** The registry invariant: an id is listed under a topic exactly when its record names
      that topic, and no list repeats an id. */
  ghost predicate Valid(s: InMemoryStorage) {
    && (forall t, id | t in s.topics && id in s.topics[t] :: SubscribedTo(s, id, t))
    && (forall id | id in s.clients && s.clients[id].Some? :: id in Members(s, s.clients[id].value))
    && (forall t | t in s.topics :: Unique(s.topics[t]))
  }

  /** `get_client`. */
  function GetClient(s: InMemoryStorage, id: Uuid): (r: Option<Client>)
    ensures r.Some? <==> id in s.clients
    ensures r.Some? ==> r.value.id == id && r.value.topic == s.clients[id]
  {
    if id in s.clients then Some(Client(id, s.clients[id])) else None
  }

  /** `get_all_clients`: every record once, in no particular order. */
  function GetAllClients(s: InMemoryStorage): (r: set<Client>)
    ensures forall c :: c in r <==> GetClient(s, c.id) == Some(c)
  {
    set id | id in s.clients :: Client(id, s.clients[id])
  }

  /** `add_client`: files the record under its id, replacing any record already there. */
  function AddClient(s: InMemoryStorage, c: Client): (r: InMemoryStorage)
    ensures GetClient(r, c.id) == Some(c)
    ensures c in GetAllClients(r)
    ensures forall id | id != c.id :: GetClient(r, id) == GetClient(s, id)
    ensures r.topics == s.topics
  {
    InMemoryStorage(s.clients[c.id := c.topic], s.topics)
  }

  /** `remove_client`: deletes the record and strikes the id from the list of the topic the
      record names, returning the record, or nothing when `id` is unknown. Topic entries
      are never deleted, even when they become empty. */
  function RemoveClient(s: InMemoryStorage, id: Uuid): (r: (InMemoryStorage, Option<Client>))
    ensures r.1 == GetClient(s, id)
    ensures GetClient(r.0, id) == None
    ensures forall other | other != id :: GetClient(r.0, other) == GetClient(s, other)
    ensures r.0.topics.Keys == s.topics.Keys
    ensures forall t | t in s.topics ::
      r.0.topics[t] == if SubscribedTo(s, id, t) then Without(s.topics[t], id) else s.topics[t]
  {
    if id in s.clients then
      var topic := s.clients[id];
      var topics :=
        if topic.Some? && topic.value in s.topics
        then s.topics[topic.value := Without(s.topics[topic.value], id)]
        else s.topics;
      (InMemoryStorage(s.clients - {id}, topics), Some(Client(id, topic)))
    else
      (s, None)
  }

  /** `subscribe_client_to_topic`: for a registered id, strikes it from the list of its
      previous topic, points its record at `topic` and appends it to that topic's list
      (creating the entry if needed). An unknown id changes nothing. */
  function Subscribe(s: InMemoryStorage, id: Uuid, topic: string): (r: InMemoryStorage)
    ensures id !in s.clients ==> r == s
    ensures id in s.clients ==>
      && GetClient(r, id) == Some(Client(id, Some(topic)))
      && r.topics.Keys == s.topics.Keys + {topic}
      && Members(r, topic) ==
           (if SubscribedTo(s, id, topic) then Without(Members(s, topic), id) else Members(s, topic)) + [id]
      && (forall t | t in s.topics && t != topic ::
            r.topics[t] == if SubscribedTo(s, id, t) then Without(s.topics[t], id) else s.topics[t])
    ensures forall other | other != id :: GetClient(r, other) == GetClient(s, other)
  {
    if id !in s.clients then s
    else
      var previous := s.clients[id];
      var topics :=
        if previous.Some? && previous.value in s.topics
        then s.topics[previous.value := Without(s.topics[previous.value], id)]
        else s.topics;
      var list := if topic in topics then topics[topic] else [];
      InMemoryStorage(s.clients[id := Some(topic)], topics[topic := list + [id]])
  }

  /** The `filter_map` of `get_clients_in_topic`: the records of the listed ids that are
      still registered, in list order. */
  function Resolve(s: InMemoryStorage, ids: seq<Uuid>): (r: seq<Client>)
    ensures |r| <= |ids|
    ensures forall c | c in r :: c.id in ids && GetClient(s, c.id) == Some(c)
    ensures forall id | id in ids && id in s.clients :: Client(id, s.clients[id]) in r
    ensures (forall id | id in ids :: id in s.clients) ==>
      |r| == |ids| && forall i | 0 <= i < |ids| :: r[i] == Client(ids[i], s.clients[ids[i]])
  {
    if ids == [] then []
    else
      var rest := Resolve(s, ids[1..]);
      assert forall id | id in ids :: id == ids[0] || id in ids[1..];
      if ids[0] in s.clients then
        var r := [Client(ids[0], s.clients[ids[0]])] + rest;
        assert forall i | 1 <= i < |r| :: r[i] == rest[i - 1];
        r
      else rest
  }

  /** `filter_map` keeps list order and multiplicity: resolving one more id appends its
      record when it is registered, and nothing otherwise. */
  lemma {:induction false} ResolveAppend(s: InMemoryStorage, ids: seq<Uuid>, x: Uuid)
    ensures Resolve(s, ids + [x]) ==
      Resolve(s, ids) + (if x in s.clients then [Client(x, s.clients[x])] else [])
  {
    if ids == [] {
      assert ids + [x] == [x];
      assert [x][1..] == [];
    } else {
      assert (ids + [x])[0] == ids[0];
      assert (ids + [x])[1..] == ids[1..] + [x];
      ResolveAppend(s, ids[1..], x);
      var head := if ids[0] in s.clients then [Client(ids[0], s.clients[ids[0]])] else [];
      ConcatAssoc(head, Resolve(s, ids[1..]), if x in s.clients then [Client(x, s.clients[x])] else []);
    }
  }

  /** `get_clients_in_topic`. */
  function GetClientsInTopic(s: InMemoryStorage, topic: string): (r: seq<Client>)
    ensures topic !in s.topics ==> r == []
    ensures forall c | c in r :: c.id in Members(s, topic) && GetClient(s, c.id) == Some(c)
  {
    Resolve(s, Members(s, topic))
  }

  /** `get_all_topics`: the topics whose list is non-empty, in no particular order. */
  function GetAllTopics(s: InMemoryStorage): (r: set<string>)
    ensures forall t :: t in r <==> Members(s, t) != []
  {
    set t | t in s.topics && s.topics[t] != []
  }

  // ---------------------------------------------------------------------------
  // The invariant is kept by every mutating operation.

  lemma EmptyValid()
    ensures Valid(Empty)
  {
  }

  /** Adding a record with a fresh id and no topic keeps the invariant. */
  lemma AddClientValid(s: InMemoryStorage, c: Client)
    requires Valid(s)
    requires c.id !in s.clients && c.topic == None
    ensures Valid(AddClient(s, c))
  {
    var r := AddClient(s, c);
    forall t, id | t in r.topics && id in r.topics[t] ensures SubscribedTo(r, id, t) {
      assert SubscribedTo(s, id, t);
    }
  }

  /** Removing a client keeps the invariant. */
  lemma RemoveClientValid(s: InMemoryStorage, id: Uuid)
    requires Valid(s)
    ensures Valid(RemoveClient(s, id).0)
  {
    var r := RemoveClient(s, id).0;
    if id in s.clients {
      forall t | t in r.topics ensures Unique(r.topics[t]) {
        if SubscribedTo(s, id, t) {
          WithoutUnique(s.topics[t], id);
        }
      }
      forall t, x | t in r.topics && x in r.topics[t] ensures SubscribedTo(r, x, t) {
        assert x in s.topics[t];
      }
      forall x | x in r.clients && r.clients[x].Some?
        ensures x in Members(r, r.clients[x].value)
      {
        var t := r.clients[x].value;
        assert x in Members(s, t);
      }
    }
  }

  /** Subscribing keeps the invariant. */
  lemma SubscribeValid(s: InMemoryStorage, id: Uuid, topic: string)
    requires Valid(s)
    ensures Valid(Subscribe(s, id, topic))
  {
    var r := Subscribe(s, id, topic);
    if id in s.clients {
      var before := if SubscribedTo(s, id, topic) then Without(Members(s, topic), id) else Members(s, topic);
      assert id !in before;
      assert Unique(before) by {
        if SubscribedTo(s, id, topic) {
          WithoutUnique(Members(s, topic), id);
        }
      }
      AppendFreshUnique(before, id);
      forall t | t in r.topics ensures Unique(r.topics[t]) {
        if t != topic && SubscribedTo(s, id, t) {
          WithoutUnique(s.topics[t], id);
        }
      }
      forall t, x | t in r.topics && x in r.topics[t] ensures SubscribedTo(r, x, t) {
        if x != id {
          assert x in Members(s, t);
        }
      }
      forall x | x in r.clients && r.clients[x].Some?
        ensures x in Members(r, r.clients[x].value)
      {
        if x != id {
          var t := r.clients[x].value;
          assert x in Members(s, t);
        }
      }
    }
  }

  // ---------------------------------------------------------------------------
  // What the read operations report.

  /** With the invariant, the clients of a topic are exactly the registered clients whose
      record names it, each once, in subscription order. */
  lemma ClientsInTopic(s: InMemoryStorage, topic: string)
    requires Valid(s)
    ensures var r := GetClientsInTopic(s, topic);
      && (forall c :: c in r <==> c in GetAllClients(s) && c.topic == Some(topic))
      && |r| == |Members(s, topic)|
      && (forall i | 0 <= i < |r| :: r[i] == Client(Members(s, topic)[i], Some(topic)))
  {
    var ids := Members(s, topic);
    var r := GetClientsInTopic(s, topic);
    assert forall id | id in ids :: SubscribedTo(s, id, topic);
    forall c | c in GetAllClients(s) && c.topic == Some(topic) ensures c in r {
      assert c.id in ids;
    }
  }

  /** An unknown topic has no clients. */
  lemma ClientsInUnknownTopic(s: InMemoryStorage, topic: string)
    requires topic !in s.topics
    ensures GetClientsInTopic(s, topic) == []
  {
  }

  /** With the invariant, the reported topics are exactly those some registered client's
      record names: an entry left empty by removals is never reported. */
  lemma ActiveTopics(s: InMemoryStorage, topic: string)
    requires Valid(s)
    ensures topic in GetAllTopics(s) <==> exists c | c in GetAllClients(s) :: c.topic == Some(topic)
  {
    if topic in GetAllTopics(s) {
      var id := s.topics[topic][0];
      assert SubscribedTo(s, id, topic);
      assert Client(id, Some(topic)) in GetAllClients(s);
    }
    if exists c | c in GetAllClients(s) :: c.topic == Some(topic) {
      var c :| c in GetAllClients(s) && c.topic == Some(topic);
      assert c.id in Members(s, topic);
    }
  }

  // ---------------------------------------------------------------------------
  // Round trips between the operations.

  /** A record added under a fresh id can be read back, and is among all clients. */
  lemma AddThenGet(s: InMemoryStorage, c: Client)
    ensures GetClient(AddClient(s, c), c.id) == Some(c)
    ensures c in GetAllClients(AddClient(s, c))
  {
  }

  /** A second removal of the same id returns nothing and changes nothing. */
  lemma RemoveTwice(s: InMemoryStorage, id: Uuid)
    ensures var once := RemoveClient(s, id).0;
      RemoveClient(once, id) == (once, None)
  {
  }

  /** With the invariant, moving a client from topic `a` to topic `b` takes it off `a`'s
      list, puts it on `b`'s exactly once, and points its record at `b`; when `a == b`
      it stays listed exactly once. */
  lemma Resubscribe(s: InMemoryStorage, id: Uuid, a: string, b: string)
    requires Valid(s) && SubscribedTo(s, id, a)
    ensures var r := Subscribe(s, id, b);
      && SubscribedTo(r, id, b)
      && (a != b ==> id !in Members(r, a))
      && multiset(Members(r, b))[id] == 1
  {
    var r := Subscribe(s, id, b);
    SubscribeValid(s, id, b);
    UniqueCount(Members(r, b));
  }
}

=== FILE: user_commands.dfy ===
/** `cli::commands` of the `neo` client: a line the user types, read into a `Command`.
    Unlike the hub's parser, the command word is matched as typed, without lower-casing. */
module UserCommands {
  import opened Options
  import opened Uuids
  import opened RustStr
  import opened CommandLine

  datatype Command =
    | Message(content: string)
    | Reply(msgId: Uuid, content: string)
    | Help
    | Unknown(message: string)

  const MESSAGE_EMPTY: string := "Message content cannot be empty."
  const REPLY_USAGE: string := "Reply content cannot be empty. Usage: /reply <msg_id> <content>"
  const INVALID_REPLY_ID: string := "Invalid message ID for reply: "
  const UNKNOWN_COMMAND: string := "Unknown command: "

  predicate IsReply(word: string) { word == "/reply" || word == "/r" }
  predicate IsHelp(word: string) { word == "/help" || word == "/h" }
  predicate IsMsg(word: string) { word == "/msg" || word == "/m" }

  /** The line is a command: once trimmed, it starts with a slash. */
  predicate IsCommandLine(input: string) {
    var t := Trim(input);
    t != [] && t[0] == '/'
  }

  /** `parse_command`: a trimmed line that does not start with `/` is a message as it is;
      otherwise the line is cut with `splitn(3, ' ')` and dispatched on its first piece. */
  function ParseCommand(input: string): (r: Command)
    ensures !IsCommandLine(input) ==> r == Message(Trim(input))
    ensures IsCommandLine(input) && r.Message? ==> r.content != ""
  {
    var t := Trim(input);
    if t == [] || t[0] != '/' then Message(t)
    else Dispatch(SplitN3(t))
  }

  /** The `match` of `parse_command` on the first piece, given the pieces. */
  function Dispatch(parts: seq<string>): (r: Command)
    requires 1 <= |parts| <= 3
    ensures r == Help <==> IsHelp(parts[0])
    ensures r.Message? ==> IsMsg(parts[0]) && r.content != ""
    ensures r.Reply? ==> IsReply(parts[0])
    ensures !IsReply(parts[0]) && !IsHelp(parts[0]) && !IsMsg(parts[0]) ==> r == Unknown(UNKNOWN_COMMAND + parts[0])
  {
    var command := parts[0];
    if command == "/reply" || command == "/r" then
      var idText := if |parts| >= 2 then parts[1] else "";
      var content := if |parts| == 3 then parts[2] else "";
      if content == "" then Unknown(REPLY_USAGE)
      else match Parse(idText)
        case Some(id) => Reply(id, content)
        case None => Unknown(INVALID_REPLY_ID + idText)
    else if command == "/help" || command == "/h" then Help
    else if command == "/msg" || command == "/m" then
      var content := Join(parts[1..], " ");
      if content == "" then Unknown(MESSAGE_EMPTY) else Message(content)
    else Unknown(UNKNOWN_COMMAND + command)
  }

  /** The command word, as typed. */
  function Word(input: string): string {
    Head(input)
  }

  /** On a command line, `/help` and `/h` and nothing else give `Help`. */
  lemma ParseHelp(input: string)
    requires IsCommandLine(input)
    ensures ParseCommand(input) == Help <==> IsHelp(Word(input))
  {
    Pieces(input);
  }

  /** `/msg` and `/m` send everything after the first space, verbatim, and refuse an empty
      message. */
  lemma ParseMsg(input: string)
    ensures IsCommandLine(input) && IsMsg(Word(input)) ==>
      ParseCommand(input) == if Rest(input) == "" then Unknown(MESSAGE_EMPTY) else Message(Rest(input))
  {
    Pieces(input);
  }

  /** `/reply` and `/r`: a missing message is refused before the id is looked at; then an
      id that does not parse is reported verbatim; otherwise the reply carries the id and
      the rest of the line, spaces included. */
  lemma ParseReply(input: string)
    ensures IsCommandLine(input) && IsReply(Word(input)) ==>
      ParseCommand(input) ==
      if Third(input) == "" then Unknown(REPLY_USAGE)
      else if Parse(Second(input)).Some? then Reply(Parse(Second(input)).value, Third(input))
      else Unknown(INVALID_REPLY_ID + Second(input))
  {
    Pieces(input);
  }

  /** Any other slash word is unknown, reported as typed. */
  lemma ParseUnknown(input: string)
    ensures IsCommandLine(input) && !IsReply(Word(input)) && !IsHelp(Word(input)) && !IsMsg(Word(input)) ==>
      ParseCommand(input) == Unknown(UNKNOWN_COMMAND + Word(input))
  {
    Pieces(input);
  }

  // ---------------------------------------------------------------------------
  // Lines the user types.

  /** `test_parse_message`: a line without a leading slash is sent as it is, trimmed. */
  lemma ParsePlainText(input: string)
    requires input != [] && input[0] != '/' && !IsWhitespace(input[0]) && !IsWhitespace(input[|input| - 1])
    ensures ParseCommand(input) == Message(input)
  {
    TrimUnchanged(input);
  }

  /** `test_parse_msg_command`: any message after `/msg` or `/m` is sent as it is. */
  lemma ParseMsgOfText(word: string, content: string)
    requires word == "/msg" || word == "/m"
    requires content != "" && !IsWhitespace(content[|content| - 1])
    ensures ParseCommand(word + " " + content) == Message(content)
  {
    var input := word + " " + content;
    assert Head(input) == word && Rest(input) == content && IsCommandLine(input) by {
      WordAndText(word, content);
      TrimUnchanged(input);
    }
    ParseMsg(input);
  }

  /** `test_parse_reply_command`: the displayed form of a message id, followed by a
      message, reads back as a reply to that message. */
  lemma ParseReplyOfText(word: string, u: Uuid, content: string)
    requires word == "/reply" || word == "/r"
    requires content != "" && !IsWhitespace(content[|content| - 1])
    ensures ParseCommand(word + " " + Text(u) + " " + content) == Reply(u, content)
  {
    var input := word + " " + Text(u) + " " + content;
    assert Head(input) == word && Second(input) == Text(u) && Third(input) == content && IsCommandLine(input) by {
      ThreeWords(word, Text(u), content);
      TrimUnchanged(input);
    }
    ParseText(u);
    ParseReply(input);
  }

  /** `test_parse_reply_invalid_uuid`: an id that does not parse is reported verbatim. */
  lemma ParseReplyBadId(word: string, idText: string, content: string)
    requires word == "/reply" || word == "/r"
    requires ' ' !in idText && Parse(idText).None?
    requires content != "" && !IsWhitespace(content[|content| - 1])
    ensures ParseCommand(word + " " + idText + " " + content) == Unknown(INVALID_REPLY_ID + idText)
  {
    var input := word + " " + idText + " " + content;
    assert Head(input) == word && Second(input) == idText && Third(input) == content && IsCommandLine(input) by {
      ThreeWords(word, idText, content);
      TrimUnchanged(input);
    }
    ParseReply(input);
  }

  /** `test_parse_reply_no_content`: a reply without a message is refused, whatever follows
      the command word, even a valid id. */
  lemma ParseReplyNoContent(word: string, idText: string)
    requires word == "/reply" || word == "/r"
    requires idText != [] && ' ' !in idText && !IsWhitespace(idText[|idText| - 1])
    ensures ParseCommand(word + " " + idText) == Unknown(REPLY_USAGE)
  {
    var input := word + " " + idText;
    assert Head(input) == word && Third(input) == "" && IsCommandLine(input) by {
      TwoWords(word, idText);
      assert input[0] == '/' && input[|input| - 1] == idText[|idText| - 1];
      TrimUnchanged(input);
    }
    ParseReply(input);
  }

  /** Any other slash word, with a word after it, is reported as typed. */
  lemma ParseUnknownWord(word: string, x: string)
    requires word != [] && word[0] == '/' && ' ' !in word
    requires !IsReply(word) && !IsHelp(word) && !IsMsg(word)
    requires x != [] && ' ' !in x && !IsWhitespace(x[|x| - 1])
    ensures ParseCommand(word + " " + x) == Unknown(UNKNOWN_COMMAND + word)
  {
    var input := word + " " + x;
    assert Head(input) == word && IsCommandLine(input) by {
      TwoWords(word, x);
      assert input[0] == '/' && input[|input| - 1] == x[|x| - 1];
      TrimUnchanged(input);
    }
    ParseUnknown(input);
  }

  /** `test_parse_unknown_command`: `/foo bar`. */
  lemma ParseFoo()
    ensures ParseCommand("/foo bar") == Unknown(UNKNOWN_COMMAND + "/foo")
  {
    assert "/foo bar" == "/foo" + " " + "bar";
    ParseUnknownWord("/foo", "bar");
  }
}

=== FILE: uuids.dfy ===
/** Client and message identifiers: the `uuid` crate's `Uuid`, its `Display`
    (lower-case hyphenated hex) and `Uuid::parse_str`. Generating a fresh v4 id is
    random and is not modelled: every operation that needs one takes it as a parameter. */
module Uuids {
  import opened Options

  type Byte = b: int | 0 <= b < 256

  /** A UUID is its sixteen bytes, most significant first. */
  type Uuid = bs: seq<Byte> | |bs| == 16 witness seq(16, _ => 0)

  /** The lower-case hex digit of `d`: `0`-`9`, then `a`-`f`. */
  function HexDigit(d: nat): (c: char)
    requires d < 16
    ensures IsHexDigit(c) && IsLowerHexDigit(c) && c != ' '
  {
    if d < 10 then ('0' as int + d) as char else ('a' as int + d - 10) as char
  }

  predicate IsLowerHexDigit(c: char) {
    ('0' <= c <= '9') || ('a' <= c <= 'f')
  }

  /** Only hyphens and lower-case hex digits: the characters of the displayed form. */
  ghost predicate DisplayChars(s: string) {
    forall i | 0 <= i < |s| :: s[i] == '-' || IsLowerHexDigit(s[i])
  }

  predicate IsHexDigit(c: char) {
    ('0' <= c <= '9') || ('a' <= c <= 'f') || ('A' <= c <= 'F')
  }

  /** The value of one hex digit of either case. */
  function DigitValue(c: char): (d: nat)
    requires IsHexDigit(c)
    ensures d < 16
  {
    if '0' <= c <= '9' then c as int - '0' as int
    else if 'a' <= c <= 'f' then c as int - 'a' as int + 10
    else c as int - 'A' as int + 10
  }

  /** Two lower-case hex digits per byte. */
  function Hex(bs: seq<Byte>): (s: string)
    ensures |s| == 2 * |bs|
  {
    if bs == [] then ""
    else [HexDigit(bs[0] / 16), HexDigit(bs[0] % 16)] + Hex(bs[1..])
  }

  /** `Hex` writes only lower-case hex digits. */
  lemma {:induction false} HexDisplay(bs: seq<Byte>)
    ensures DisplayChars(Hex(bs))
  {
    if bs != [] {
      HexDisplay(bs[1..]);
      DisplayConcat([HexDigit(bs[0] / 16), HexDigit(bs[0] % 16)], Hex(bs[1..]));
    }
  }

  lemma DisplayConcat(a: string, b: string)
    requires DisplayChars(a) && DisplayChars(b)
    ensures DisplayChars(a + b)
  {
    forall i | 0 <= i < |a + b| ensures (a + b)[i] == '-' || IsLowerHexDigit((a + b)[i]) {
      if i >= |a| {
        assert (a + b)[i] == b[i - |a|];
      }
    }
  }

  /** Five groups of display characters joined by hyphens are display characters, so hold no space. */
  lemma DisplayGroups(h0: string, h1: string, h2: string, h3: string, h4: string)
    requires DisplayChars(h0) && DisplayChars(h1) && DisplayChars(h2) && DisplayChars(h3) && DisplayChars(h4)
    ensures var s := h0 + ("-" + (h1 + ("-" + (h2 + ("-" + (h3 + ("-" + h4)))))));
      DisplayChars(s) && ' ' !in s
  {
    var t3 := h3 + ("-" + h4);
    DisplayConcat("-", h4);
    DisplayConcat(h3, "-" + h4);
    DisplayConcat("-", t3);
    var t2 := h2 + ("-" + t3);
    DisplayConcat(h2, "-" + t3);
    DisplayConcat("-", t2);
    var t1 := h1 + ("-" + t2);
    DisplayConcat(h1, "-" + t2);
    DisplayConcat("-", t1);
    var s := h0 + ("-" + t1);
    DisplayConcat(h0, "-" + t1);
    assert forall i | 0 <= i < |s| :: s[i] != ' ';
  }

  /** `Uuid::to_string`: the hyphenated form, 8-4-4-4-12 lower-case hex digits. */
  function Text(u: Uuid): (s: string)
    ensures |s| == 36
    ensures ' ' !in s
    ensures forall i | 0 <= i < |s| :: s[i] == '-' || '0' <= s[i] <= '9' || 'a' <= s[i] <= 'f'
  {
    HexDisplay(u[..4]);
    HexDisplay(u[4..6]);
    HexDisplay(u[6..8]);
    HexDisplay(u[8..10]);
    HexDisplay(u[10..]);
    DisplayGroups(Hex(u[..4]), Hex(u[4..6]), Hex(u[6..8]), Hex(u[8..10]), Hex(u[10..]));
    Hex(u[..4]) + ("-" + (Hex(u[4..6]) + ("-" + (Hex(u[6..8]) + ("-" + (Hex(u[8..10]) + ("-" + Hex(u[10..]))))))))
  }

  predicate AllHexDigits(s: string) {
    forall i | 0 <= i < |s| :: IsHexDigit(s[i])
  }

  /** Reads pairs of hex digits of either case as bytes; fails on an odd length or a non-digit. */
  function ParseHex(s: string): (r: Option<seq<Byte>>)
    ensures r.Some? ==> |s| == 2 * |r.value| && AllHexDigits(s)
  {
    if s == [] then Some([])
    else if |s| < 2 || !IsHexDigit(s[0]) || !IsHexDigit(s[1]) then None
    else
      match ParseHex(s[2..])
      case None => None
      case Some(rest) => Some([DigitValue(s[0]) * 16 + DigitValue(s[1])] + rest)
  }

  /** The 32-digit simple form. */
  function ParseSimple(s: string): (r: Option<Uuid>)
    ensures r.Some? ==> |s| == 32 && AllHexDigits(s)
  {
    if |s| != 32 then None
    else
      match ParseHex(s)
      case None => None
      case Some(bs) => Some(bs)
  }

  /** The 36-character hyphenated form, with hyphens exactly at offsets 8, 13, 18 and 23. */
  function ParseHyphenated(s: string): (r: Option<Uuid>)
    ensures r.Some? ==> |s| == 36 && forall i | 0 <= i < |s| :: s[i] == '-' || IsHexDigit(s[i])
  {
    if |s| != 36 || s[8] != '-' || s[13] != '-' || s[18] != '-' || s[23] != '-' then None
    else
      var digits := s[..8] + s[9..13] + s[14..18] + s[19..23] + s[24..];
      var r := ParseSimple(digits);
      assert r.Some? ==> forall i | 0 <= i < |s| :: s[i] == '-' || IsHexDigit(s[i]) by {
        if r.Some? {
          forall i | 0 <= i < |s| ensures s[i] == '-' || IsHexDigit(s[i]) {
            if i < 8 { assert s[i] == digits[i]; }
            else if 8 < i < 13 { assert s[i] == digits[i - 1]; }
            else if 13 < i < 18 { assert s[i] == digits[i - 2]; }
            else if 18 < i < 23 { assert s[i] == digits[i - 3]; }
            else if 23 < i { assert s[i] == digits[i - 4]; }
          }
        }
      }
      r
  }

  /** `Uuid::parse_str`, dispatching on the length as the uuid 1.x parser does: 32 (simple),
      36 (hyphenated), 38 (hyphenated in braces) and 45 (hyphenated after `urn:uuid:`).
      Any accepted text is one unbroken word. */
  function Parse(s: string): (r: Option<Uuid>)
    ensures r.Some? ==> |s| in {32, 36, 38, 45}
    ensures r.Some? ==> ' ' !in s
  {
    if |s| == 32 then ParseSimple(s)
    else if |s| == 36 then ParseHyphenated(s)
    else if |s| == 38 then
      if s[0] == '{' && s[37] == '}' then
        var r := ParseHyphenated(s[1..37]);
        assert r.Some? ==> ' ' !in s by {
          if r.Some? {
            forall i | 1 <= i < 37 ensures s[i] != ' ' {
              assert s[i] == s[1..37][i - 1];
            }
          }
        }
        r
      else None
    else if |s| == 45 then
      if s[..9] == "urn:uuid:" then
        var r := ParseHyphenated(s[9..]);
        assert r.Some? ==> ' ' !in s by {
          if r.Some? {
            forall i | 0 <= i < 45 ensures s[i] != ' ' {
              if i < 9 {
                assert s[i] == s[..9][i];
              } else {
                assert s[i] == s[9..][i - 9];
              }
            }
          }
        }
        r
      else None
    else None
  }

  lemma DigitRoundTrip(d: nat)
    requires d < 16
    ensures DigitValue(HexDigit(d)) == d
  {
  }

  /** The two digits `Hex` writes for a byte read back as that byte. */
  lemma ByteDigits(b: Byte)
    ensures DigitValue(HexDigit(b / 16)) * 16 + DigitValue(HexDigit(b % 16)) == b
  {
    DigitRoundTrip(b / 16);
    DigitRoundTrip(b % 16);
  }

  /** `ParseHex` reads the two digits `Hex` writes for a byte, then the rest. */
  lemma ParseHexCons(b: Byte, rest: string, tail: seq<Byte>)
    requires ParseHex(rest) == Some(tail)
    ensures ParseHex([HexDigit(b / 16), HexDigit(b % 16)] + rest) == Some([b] + tail)
  {
    var s := [HexDigit(b / 16), HexDigit(b % 16)] + rest;
    ByteDigits(b);
    assert s[0] == HexDigit(b / 16) && s[1] == HexDigit(b % 16) && s[2..] == rest;
  }

  /** One step of the round trip: a byte's two digits read back as that byte. */
  lemma ParseHexStep(b: Byte, tail: seq<Byte>)
    requires ParseHex(Hex(tail)) == Some(tail)
    ensures ParseHex(Hex([b] + tail)) == Some([b] + tail)
  {
    assert ([b] + tail)[1..] == tail;
    assert Hex([b] + tail) == [HexDigit(b / 16), HexDigit(b % 16)] + Hex(tail);
    ParseHexCons(b, Hex(tail), tail);
  }

  /** Reading the hex text of some bytes gives those bytes back. */
  lemma {:induction false} ParseHexOfHex(bs: seq<Byte>)
    ensures ParseHex(Hex(bs)) == Some(bs)
  {
    if bs != [] {
      ParseHexOfHex(bs[1..]);
      ParseHexStep(bs[0], bs[1..]);
      assert [bs[0]] + bs[1..] == bs;
    }
  }

  lemma {:induction false} HexAppend(a: seq<Byte>, b: seq<Byte>)
    ensures Hex(a + b) == Hex(a) + Hex(b)
  {
    if a != [] {
      assert (a + b)[1..] == a[1..] + b;
      HexAppend(a[1..], b);
    } else {
      assert a + b == b;
    }
  }

  /** Where the suffix after offset `k` is `h + "-" + r`, the whole has `h` at `k`, a hyphen
      after it and `r` after that. */
  lemma GroupAt(s: string, k: nat, h: string, r: string)
    requires k <= |s| && s[k..] == h + ("-" + r)
    ensures s[k..k + |h|] == h && s[k + |h|] == '-' && s[k + |h| + 1..] == r
  {
    assert s[k..k + |h|] == s[k..][..|h|];
    assert s[k + |h| + 1..] == s[k..][|h| + 1..];
  }

  /** Dropping the four hyphens of the 8-4-4-4-12 layout leaves the five groups, joined. */
  lemma StripHyphens(h0: string, h1: string, h2: string, h3: string, h4: string)
    requires |h0| == 8 && |h1| == 4 && |h2| == 4 && |h3| == 4 && |h4| == 12
    ensures var s := h0 + ("-" + (h1 + ("-" + (h2 + ("-" + (h3 + ("-" + h4)))))));
      s[8] == '-' && s[13] == '-' && s[18] == '-' && s[23] == '-'
      && s[..8] + s[9..13] + s[14..18] + s[19..23] + s[24..] == h0 + h1 + h2 + h3 + h4
  {
    var r3 := h3 + ("-" + h4);
    var r2 := h2 + ("-" + r3);
    var r1 := h1 + ("-" + r2);
    var s := h0 + ("-" + r1);
    assert s[0..] == s;
    GroupAt(s, 0, h0, r1);
    GroupAt(s, 9, h1, r2);
    GroupAt(s, 14, h2, r3);
    GroupAt(s, 19, h3, h4);
  }

  /** The hex of an id is the hex of its five groups, joined. */
  lemma HexGroups(u: Uuid)
    ensures Hex(u[..4]) + Hex(u[4..6]) + Hex(u[6..8]) + Hex(u[8..10]) + Hex(u[10..]) == Hex(u)
  {
    HexAppend(u[..4], u[4..6]);
    HexAppend(u[..4] + u[4..6], u[6..8]);
    HexAppend(u[..4] + u[4..6] + u[6..8], u[8..10]);
    HexAppend(u[..4] + u[4..6] + u[6..8] + u[8..10], u[10..]);
    assert u[..4] + u[4..6] + u[6..8] + u[8..10] + u[10..] == u;
  }

  /** The hex digits of the displayed form, hyphens dropped, are the hex of the whole id. */
  lemma TextDigits(u: Uuid)
    ensures var s := Text(u);
      s[8] == '-' && s[13] == '-' && s[18] == '-' && s[23] == '-'
      && s[..8] + s[9..13] + s[14..18] + s[19..23] + s[24..] == Hex(u)
  {
    StripHyphens(Hex(u[..4]), Hex(u[4..6]), Hex(u[6..8]), Hex(u[8..10]), Hex(u[10..]));
    HexGroups(u);
  }

  /** `parse_str(&u.to_string()) == Ok(u)`: the displayed form of an id reads back as that id. */
  lemma ParseText(u: Uuid)
    ensures Parse(Text(u)) == Some(u)
  {
    TextDigits(u);
    ParseHexOfHex(u);
  }
}
